=== FILE: README.md ===
# aws_llm_rag: the request-shaping and response-shaping core, in Dafny

The repository wraps AWS Bedrock knowledge-base retrieval and model calls behind:

- a command-line tool (`kb_tool/`);
- a handful of helper scripts (`tools/`);
- a serverless handler (`lambda_handler.py`).

All of them are thin. Around each service call sits a small piece of deterministic logic, and that logic is what this project models and proves things about:

- **metadata flags**: `key=value` command-line flags are parsed into a map, and the map is serialised as an `equals` filter payload;
- **configuration**: boolean flags, the process environment, and the `settings.json` sections that back it up are resolved into a `BedrockConfig`;
- **request bodies**: the request bodies for `retrieve`, `retrieve_and_generate` and the rephrasing model are built;
- **result shaping**: retrieval results become records, chunk summaries and context blocks;
- **model output**: the text the model returned is read out of its response;
- **agent streams**: the events streamed by an agent are classified, and its markdown is assembled;
- **the serverless handler**: it maps its outcomes to HTTP 200, 400 and 500.

Modelling choices:

- **Python values.** A Python value (a JSON-like object) is `Values.Value`.
- **Dictionaries.** A Python dictionary is an insertion-ordered association list `Dicts.Dict<V>`. `Put` is `d[k] = v`: it replaces the value in place when the key is present and appends otherwise.
- **Exceptions.** An exception is an `Err(Error)` of `Wrappers.Result`. `Error` names the exception class and carries its message; `Error.Message` is `str(e)`, with a `KeyError` showing its key in single quotes. Messages that Python builds with `repr` are written with plain single quotes and no escaping (see "Left out").
- **Duplicate keys.** An `Object` is a list of entries and may, as a value, list a key twice; a Python dictionary cannot. Every dictionary the model builds has distinct keys (`Dicts.DistinctKeys`), lookups read the first entry for a key, and the lemmas that depend on distinct keys require them.
- **External calls.** Every service call, `json.loads`, UTF-8 decoding, `float()`, `str.format` and `uuid` is a function-typed parameter. Such a parameter may fail, and the model covers only the deterministic logic around it.

Modules, one per source file, plus four shared ones:

| module | models |
|---|---|
| `Wrappers`, `Text`, `Dicts`, `Values` | `Option`/`Result`, the `str` methods used, ordered dicts, Python values and builtins |
| `KbConfig` | `kb_tool/config.py` |
| `Metadata` | `tools/metadata.py` (with the `MetadataConfig` defaults of `kb_tool/config.py`) |
| `ToolsConfig` | `tools/config.py` |
| `KbClient` | `kb_tool/kb_client.py` |
| `Generator` | `kb_tool/generator.py` |
| `InvokeAgent` | `tools/invoke_agent.py` |
| `LambdaHandler` | `lambda_handler.py` |

Two points about the metadata filter, as the code builds it:

- **Its shape.** The filter is `{"equals": [ {key, value: {stringValue}}, … ]}`: a single `equals` key whose list holds one entry per pair, in the order the pairs were given.
- **No synthesis.** The filter is built only from explicit `key=value` flags; no code in the repository derives a filter from the query.

## Model

| member | source | states |
|---|---|---|
| Metadata.ParsePair | tools/metadata.py:17-29 | A pair without the separator fails with the message naming the `key<sep>value` form; an empty separator fails as `str.split` does; otherwise the pair splits at the first separator and both halves are trimmed when stripping is on: a blank key gives the empty-key error, a blank value with empty values disallowed gives the error naming the key, and any other pair is stored as the trimmed `(key, value)`; every failure is a `ValueError` |
| Metadata.ParseMetadataArgs | tools/metadata.py:9-30 | Succeeds exactly when every argument parses; otherwise the error is that of the first argument that fails; on success the map is the arguments' pairs stored in order (later keys overwrite), its keys are distinct, and no arguments give the empty map; `None` means the default configuration |
| Metadata.ParsedMapHoldsLastValues | tools/metadata.py:15-30 | The parsed map holds exactly the parsed keys, each with the value of its last pair |
| Metadata.FormatThenParse | tools/metadata.py:21-29 | For a one-character separator: `key<sep>value` parses back to `(key, value)` when the key has no separator, whatever separators the value holds (only the first one splits) |
| Metadata.BlankKeyRejected | tools/metadata.py:22-26 | For a one-character separator not in the key: with trimming on, a key of only whitespace is rejected with the empty-key error, whatever the value |
| Metadata.EmptyValueRejected | tools/metadata.py:27-28 | For a one-character separator not in the key: with empty values disallowed, an empty (or, when trimming, blank) value is rejected with the message naming the trimmed key |
| Metadata.OverlappingSeparatorSplitsEarly | tools/metadata.py:21-26 | With a longer separator the round trip can fail: key `ab` written with separator `aba` reads back as an empty key and is rejected |
| KbConfig.MetadataDictFromKeyValues | kb_tool/config.py:131-148 | No filter exactly when there are no pairs; otherwise a single `equals` key whose list has one `{key, value: {stringValue}}` entry per pair, in order, key and value unchanged |
| KbConfig.MetadataFilterRoundTrip | kb_tool/config.py:137-148 | Every pair, in order, can be read back out of the filter payload: reading the payload is the inverse of building it |
| KbConfig.LoadSettingsEnv | kb_tool/config.py:179-213 | A file that is missing, fails to read (`OSError`) or is not JSON gives no settings; bytes that are not UTF-8 raise the decoding error, which is not caught; a parsed file succeeds exactly when its top level is an object (anything else has no `get`, an `AttributeError`); each error becomes the `settings` error that lookups of names the environment lacks surface |
| KbConfig.SettingsPrecedence | kb_tool/config.py:197-210 | A name takes its (stringified) value from the last section that has it, in the order `bedrock.env`, `awsBedrock.env`, the platform section, `terminal.integrated.env`; sections that are not objects contribute nothing |
| KbConfig.GetEnvValue | kb_tool/config.py:151-159 | The process environment wins whenever it has the name, even with an empty value; only otherwise are the settings consulted, and only then can their loading error surface |
| KbConfig.FlagOf | kb_tool/config.py:168-173 | After trimming and lower-casing, `1/true/yes/y/on` read as true, `0/false/no/n/off` as false, anything else as the default |
| KbConfig.EnvFlag | kb_tool/config.py:162-173 | An absent flag gives the default; a present one is read by `FlagOf`; with loadable settings the flag never fails |
| KbConfig.FlagIgnoresPadding | kb_tool/config.py:168-172 | whitespace around a flag's token never changes whether it reads as true, false or the default |
| KbConfig.FlagIgnoresCase | kb_tool/config.py:168-172 | a flag's token reads the same as its lower-cased form |
| Text.StripLower | kb_tool/config.py:168 | stripping and lower-casing commute, so the order of `.strip().lower()` does not matter |
| KbConfig.IntSetting | kb_tool/config.py:87 | `int(value or default)`: an absent or empty value gives the default, any other is parsed by `int()` |
| KbConfig.RequiredFromEnv | kb_tool/config.py:75-82 | With neither region variable set (or both empty) the region error; else with no (or an empty) knowledge-base id its error; otherwise the region (`AWS_REGION` first) and the id, both non-empty |
| KbConfig.RetrievalFromEnv | kb_tool/config.py:85-91 | Succeeds exactly when `BEDROCK_KB_TOP_K` is absent, empty or an integer; top_k defaults to 5, the search type to `SEMANTIC` and the health-check query to `health check` when absent or empty |
| KbConfig.GenerationFromEnv | kb_tool/config.py:93-103 | Instructions fall back to the default text when absent or empty, max_tokens to 800 and temperature to 0.1; the Anthropic version and context template are always the defaults |
| KbConfig.MetadataFromEnv | kb_tool/config.py:105-115 | The separator falls back to `=` when absent or empty; each flag defaults to true when absent and is otherwise read by `FlagOf` (default true) |
| KbConfig.FromEnv | kb_tool/config.py:71-124 | A missing required value is reported before anything else; on success region and id are non-empty and come from the environment, the model id falls back to the default, and with no top_k/temperature/max_tokens set the call succeeds with top_k 5 and max_tokens 800 |
| KbConfig.FromEnvReadsTopK | kb_tool/config.py:87 | A `BEDROCK_KB_TOP_K` written as `str(n)` gives top_k `n` |
| KbConfig.FromEnvRejectsBadTopK | kb_tool/config.py:87 | Any non-empty `BEDROCK_KB_TOP_K` that `int()` rejects makes `from_env` fail with the `ValueError` naming that value, once the required values are present |
| KbConfig.WordIsNotAnInt | kb_tool/config.py:87 | `int("five")` fails with the `ValueError` naming `five` |
| Text.ParseInt | kb_tool/config.py:87 | `int(s)`: a blank string fails, and every failure is the `ValueError` naming the string |
| Text.IntToStringParses | kb_tool/config.py:87 | `int(str(n)) == n` for every integer |
| ToolsConfig.InferenceConfig | tools/config.py:15-21 | Exactly the keys `max_new_tokens`, `temperature`, `top_p`, `top_k`, mapped to the four class constants |
| ToolsConfig.VectorSearchConfiguration | tools/config.py:34-39 | The count and the fixed `SEMANTIC` search type, plus a `filter` key exactly when the filter is truthy |
| ToolsConfig.RetrievalConfiguration | tools/config.py:29-40 | A single `vectorSearchConfiguration` key; the count defaults to 3 only when it is `None`, so an explicit 0 is kept |
| ToolsConfig.PromptTemplateHasPlaceholder | tools/config.py:46-59 | The prompt template contains the literal `$search_results$` |
| ToolsConfig.GenerationConfiguration | tools/config.py:77-88 | The prompt template and the inference block with max tokens 1500, temperature 0.2 and top-p 0.9 |
| ToolsConfig.KnowledgeBaseConfiguration | tools/config.py:68-89 | The knowledge-base id and model ARN unchanged, the same vector search block `retrieval_configuration` builds without a filter, and the generation block |
| ToolsConfig.RetrieveAndGenConfig | tools/config.py:63-90 | Type `KNOWLEDGE_BASE`; the count defaults to 3 only when it is `None` |
| KbClient.SearchBlock | kb_tool/kb_client.py:36-43 | The count and search type, and a `filter` key exactly when a filter payload exists |
| KbClient.FilterPayload | kb_tool/kb_client.py:33 | A payload exactly when there are metadata pairs (`None` and `{}` both give none) |
| KbClient.BuildRetrieveRequest | kb_tool/kb_client.py:30-49 | Fails with `Query cannot be empty` exactly when the query is blank; otherwise sends the configured knowledge-base id, the query text, and a search block whose count and search type fall back to the configuration when absent or falsy |
| KbClient.SearchBlockMatchesToolsBlock | kb_tool/kb_client.py:36-43 | With the default search type and a non-empty filter, `retrieve` sends the same block as the tools' `retrieval_configuration` |
| KbClient.ZeroCountDefaultsDiffer | kb_tool/kb_client.py:34 | An explicit count of 0 falls back to the configured `top_k` in `retrieve` but is sent as 0 by the tools' builder |
| KbClient.FormatResult | kb_tool/kb_client.py:53-60 | A result that is not a dict, or whose content is present and not a dict, has no `get` (`AttributeError`); otherwise the record is content `text` (default `""`, and an absent content counts as `{}`), score (default `None`), metadata (default `{}`) and documents (default `[]`), exactly these four keys in order |
| KbClient.FormatResultOfFields | kb_tool/kb_client.py:53-60 | A result whose content is a dict holding text yields that text with the result's own score, metadata and documents, each defaulted only when absent; so a result carrying all four keeps them unchanged |
| KbClient.ResultItems | kb_tool/kb_client.py:52 | A response without `retrievalResults` gives no items; a list there gives its elements; a response that is not a dict fails |
| KbClient.FormatResults | kb_tool/kb_client.py:51-61 | Reading the results' error is passed on; otherwise one record per retrieval result, in order, each the formatting of its result, or the error of the first result that cannot be formatted |
| KbClient.Retrieve | kb_tool/kb_client.py:21-61 | A blank query fails before the service is called, whatever it would return; a service error is passed through; otherwise the outcome is that of formatting the service's response: one record per result, in order, or the first failing result's error |
| KbClient.MetadataDescription | kb_tool/kb_client.py:69-70 | Falsy metadata gives `""`; it succeeds exactly when the metadata is falsy or a dict; one pair gives `k=str(v)` |
| KbClient.MetadataDescriptionAppend | kb_tool/kb_client.py:70 | Pairs are listed in dictionary order: one more pair appends `, k=v` |
| KbClient.ChunkSection | kb_tool/kb_client.py:69-73 | A chunk that is not a dict fails; a chunk's section succeeds exactly when its metadata description does (else that error) and is `[Chunk <index> \| score=<str(score)>] <description>`, a newline and `str(content)`, with a missing score or content shown as `None` |
| KbClient.EmptyChunkSection | kb_tool/kb_client.py:72 | A chunk with no fields shows `None` for its score and content |
| KbClient.SummarizeChunks | kb_tool/kb_client.py:63-74 | No chunks give `""`; success means every chunk, numbered from 1, has a section and the result is them joined by a blank line; a failure is the error of the first chunk without a section |
| KbClient.SummaryAppend | kb_tool/kb_client.py:74 | Summarising one more chunk appends a blank line and its section |
| Values.OrInt | kb_tool/kb_client.py:34 | `n or default`: the default replaces both an absent value and 0 |
| Values.OrString | kb_tool/kb_client.py:35 | `s or default`: the default replaces both an absent and an empty string |
| Generator.ResolveParameters | kb_tool/generator.py:32-34 | Temperature and max_tokens fall back only when `None` (an explicit 0 is kept); instructions fall back when `None` or empty |
| Generator.PayloadSettings | kb_tool/generator.py:36-40 | The keys `anthropic_version`, `max_tokens`, `temperature`, `system` in order, holding the version and the resolved parameters |
| Generator.Payload | kb_tool/generator.py:36-52 | The settings keys followed by `messages`, which holds one user message with the prompt as its single text item |
| Generator.Header | kb_tool/generator.py:73-75 | A chunk that is not a dict fails; the header succeeds exactly when the metadata description does (else that error); falsy metadata or a blank description gives `Snippet <index>:`; any other description `d` gives `Snippet <index>: ` followed by `d` without the whitespace it ends with (so `d` itself when it ends in a non-space character); every header starts `Snippet <index>:` |
| Generator.ChunkLines | kb_tool/generator.py:75-77 | A chunk gives three lines exactly when its header succeeds (else the header's error): the header, its content (default `""`), and an empty line |
| Generator.ContextLines | kb_tool/generator.py:71-77 | The lines succeed exactly when every chunk's header does, numbering from 1; then chunk `j` (numbered `j+1`) owns lines `3j..3j+2`, which are its header, its content and an empty line, whatever the content holds; a failure is the header error of the first chunk whose header fails |
| Generator.BuildContextBlock | kb_tool/generator.py:69-78 | No chunks give `""`; a failure collecting the lines is passed on; otherwise the block is the collected lines joined by newlines (which fails on the first line that is not a `str`) |
| Generator.ContextBlockLines | kb_tool/generator.py:71-78 | When no line holds a newline, the block splits back into three lines per chunk, and chunk `j` (numbered `j+1`) owns lines `3j..3j+2`: its header, content and an empty line |
| Generator.ContentTexts | kb_tool/generator.py:64-66 | Succeeds exactly when every content item is a dict (else `AttributeError`); a single item contributes its `text` (default `""`) when its `type` is `"text"` and nothing otherwise; no contents give no texts |
| Generator.ContentTextsAppend | kb_tool/generator.py:64-66 | The texts of two runs of items are those of the first followed by those of the second, and the first run's error comes first: with the single-item case this fixes every result |
| Generator.ResponseText | kb_tool/generator.py:60-67 | A body that is not a dict fails; a body without `output` gives `""` |
| Generator.ResponseTextOfBody | kb_tool/generator.py:61-67 | On a well-formed body the text is the in-order concatenation of the `text` parts of every output; other parts are skipped |
| Generator.Generate | kb_tool/generator.py:20-67 | A context-block error is raised before anything else; then a prompt-formatting error, then the model call's error, is passed on; when every step succeeds the result is the text read from the body the model returned, called with the model id and the payload of the resolved parameters and the formatted prompt |
| InvokeAgent.DecodeOrStr | tools/invoke_agent.py:30 | Bytes are decoded as UTF-8; anything else is `str()`-ed |
| InvokeAgent.TraceBytes | tools/invoke_agent.py:35-39 | The bytes of a nested `trace` dict are preferred when present and not `None`; otherwise the payload's own `bytes` (`None` if absent) |
| InvokeAgent.SanitizeValue | tools/invoke_agent.py:50-53 | A value that is not a dict holding `bytes` is kept; otherwise it is replaced by the decoded text, and a non-bytes `bytes` entry raises `AttributeError` |
| InvokeAgent.SanitizedEntries | tools/invoke_agent.py:49-53 | Succeeds exactly when every value can be sanitized; then entry `i` is the event's key `i` with its sanitized value; a failure is the error of the first value that cannot be sanitized |
| InvokeAgent.SanitizedPayloadGet | tools/invoke_agent.py:48-54 | The payload holds exactly the event's keys, once each, each mapped to the sanitized value of its last entry |
| InvokeAgent.SanitizedPayloadEntry | tools/invoke_agent.py:49-53 | With distinct keys, every key maps to its own sanitized value |
| InvokeAgent.SerializeEvent | tools/invoke_agent.py:25-54 | A non-dict event has no `get`; a dict `chunk` always gives a chunk record of its decoded bytes (default `b""`), even beside a trace, and a chunk record means a dict `chunk`; with no chunk dict and a trace dict the call succeeds exactly when the trace's bytes decode (else that error) and gives a trace record holding the parsed JSON of the text or the text itself; with neither it succeeds exactly when the event can be sanitized (else that error) and gives an event record holding the sanitized payload |
| InvokeAgent.RecordTypeTag | tools/invoke_agent.py:90 | A record's `type` is `"chunk"` exactly for chunk records |
| InvokeAgent.StreamEvents | tools/invoke_agent.py:87 | A response without `responseStream` gives no events; a list there gives its elements; a non-dict response fails |
| InvokeAgent.Invoke | tools/invoke_agent.py:75-93 | The session id is the given one unless absent or empty, else the fresh one; a service error is passed through, and so is a failure to read the stream; success means one record per event, in order, each its serialization, and the text is that of the chunk records; otherwise the error is the serialization error of the first bad event |
| InvokeAgent.CollectRecords | tools/invoke_agent.py:84-93 | For any serializer: one record per event, in order, each the event's serialization, with the text of the chunk records joined in order; or the error of the first event that cannot be serialized |
| InvokeAgent.NoChunksNoText | tools/invoke_agent.py:90-93 | A run without chunk records has empty text |
| InvokeAgent.ChunkTextAppend | tools/invoke_agent.py:90-93 | The text of a run is the concatenation of the texts of its parts |
| LambdaHandler.EnvVar | lambda_handler.py:12-13 | A missing variable raises `KeyError` naming it |
| Values.Membership | lambda_handler.py:16 | `key in v`: for a dict, whether the key is one of its keys; for a list, whether the string is an element; for a string, whether it is a substring; any other value is a `TypeError` |
| LambdaHandler.PromptOf | lambda_handler.py:16-20 | An event that is not a dict fails; without `body` the top-level `prompt_question` (or `None`); a string body is JSON-parsed and a non-string body is used as is, then its `prompt_question` is read |
| LambdaHandler.DraftText | lambda_handler.py:38 | A response that is not a dict, or whose `output` is not a dict, is a `TypeError`; without `output` it raises `KeyError('output')`; a dict `output` holding `text` gives that text, and one without it raises `KeyError('text')` |
| LambdaHandler.ServerError | lambda_handler.py:47-53 | Status 500 with the exception's `str` as `error` |
| LambdaHandler.LambdaHandler | lambda_handler.py:6-53 | Status is 200, 400 or 500; a missing `KNOWLEDGE_BASE_ID` (then `MODEL_ARN`) is a 500 even without a prompt; an event that is not a dict is a 500 with the membership test's error; 400 exactly when both variables are present and the prompt is falsy; 200 means the chain succeeded with `draft_text` the response's `output.text`; 500 carries the exception's message |
| LambdaHandler.BadRequestSkipsRetrieval | lambda_handler.py:22-28 | A 400 reply does not depend on the retrieve-and-generate call |
| LambdaHandler.EmptyEventRejected | lambda_handler.py:16-28 | An event without a prompt is rejected with 400 once the configuration is present |
| LambdaHandler.GatewayMatchesDirect | lambda_handler.py:16-20 | A JSON string body holding the prompt is handled like the prompt given at the top level |
| LambdaHandler.MissingOutputIsServerError | lambda_handler.py:38-53 | A response without `output` gives 500 with error `'output'` |

## Left out

- Service calls. `boto3` session and client construction and every call to the service (`retrieve`, `invoke_model`, `retrieve_and_generate`, `invoke_agent`) are function-typed parameters. Their behaviour, timeouts and retries are not modelled.
- The `region` argument of `invoke_agent`. It only configures the client.
- Library calls. `json.loads`, `bytes.decode("utf-8")`, `float()`, `str.format` and `uuid.uuid4().hex` are parameters whose internals are not modelled. `json.dumps` is not modelled at all: the serverless handler's `body` is the dictionary that would be dumped, and the request `generate` sends is the payload dictionary.
- The file writes at the end of `invoke_agent`. This covers `_project_output_dir`, the two `write_text` calls and the returned file paths.
- `AgentInvocationConfig`. It is imported from `tools/config.py` but not defined there, so its defaults (output directory, file names, region) are not part of this model.
- `settings.json` path resolution, file reading and the `sys.platform` mapping: filesystem and OS I/O. `LoadSettingsEnv` takes the outcome of reading and parsing the file (absent, ignored, undecodable, or the parsed value) and the platform's section name; the decoding error's message is a parameter.
- The module-level settings cache. The merged settings are passed to every lookup as one value, which is what the cache guarantees.
- Floating-point values. Temperature and top-p are opaque `Float` values carrying their Python text. Their truthiness is approximated as "not `0.0`".
- `Text.Lower` lower-cases ASCII letters only. This is exact for the flag tokens it is compared with.
- `Values.Repr`: `repr` of strings and containers always uses single quotes and no escaping. For bytes, `Values.ByteRepr` writes tab, newline, carriage return, the backslash and the single quote as `\xhh` escapes, where Python writes `\t`, `\n`, `\r`, `\\` and `\'` (or switches to double quotes).
- Text.IntError: Python's `int()` message shows the string with `repr`, which escapes special characters and switches to double quotes when the string holds a single quote; the model always uses plain single quotes.
- Wrappers.Error.Message: `str()` of a `KeyError` is the `repr` of its key; the model writes the key between plain single quotes, exact for keys without quotes or escapes (every key the model raises with).
- Metadata.FormatThenParse, Metadata.BlankKeyRejected, Metadata.EmptyValueRejected: stated for a one-character separator only (the default `=` is one); for longer separators "no separator in the key" is not enough, as `Metadata.OverlappingSeparatorSplitsEarly` shows.
- `Text.ParseInt` accepts ASCII digits only. It does not accept the other Unicode digits `int()` does.
- InvokeAgent.SanitizedPayloadEntry: requires the event's keys to be distinct, as a Python dictionary's are. `InvokeAgent.SanitizedPayloadGet` states the payload for any key list.
- The command-line entry points: `cli.py`, `_build_parser` and `main` of `tools/invoke_agent.py`: argument parsing and dispatch glue with no logic beyond the calls modelled here.
- `tools/retrieve.py`, `tools/retrieve_generate.py`, `tools/rephrase.py` and `get_arn.py`. They are thin SDK wrappers with no logic beyond the calls modelled here.

=== FILE: dicts.dfy ===
/** Python dictionaries with string keys. A Python `dict` remembers insertion
    order, and every modelled operation that builds one from a sequence of
    pairs depends on it, so a dictionary is an association list. */
module Dicts {
  import opened Wrappers

  type Dict<V> = seq<(string, V)>

  /** `list(d.keys())`. */
  function Keys<V>(d: Dict<V>): (ks: seq<string>)
    ensures |ks| == |d|
    ensures forall i :: 0 <= i < |d| ==> ks[i] == d[i].0
  {
    seq(|d|, i requires 0 <= i < |d| => d[i].0)
  }

  lemma KeysOfPairs<V>(d: Dict<V>, ks: seq<string>)
    requires |ks| == |d| && forall i :: 0 <= i < |d| ==> d[i].0 == ks[i]
    ensures Keys(d) == ks
  {
  }

  lemma KeysAppend<V>(d: Dict<V>, k: string, v: V)
    ensures Keys(d + [(k, v)]) == Keys(d) + [k]
  {
  }

  /** Every key occurs once, as in any Python `dict`. */
  predicate DistinctKeys<V>(d: Dict<V>) {
    forall i, j :: 0 <= i < j < |d| ==> d[i].0 != d[j].0
  }

  /** `d.get(k)`, with `None` for a missing key. */
  function Get<V>(d: Dict<V>, k: string): (r: Option<V>)
    ensures r.None? <==> k !in Keys(d)
    ensures r.Some? ==> (k, r.value) in d
  {
    if |d| == 0 then None
    else if d[0].0 == k then Some(d[0].1)
    else
      assert Keys(d) == [d[0].0] + Keys(d[1..]);
      Get(d[1..], k)
  }

  /** The pair at position `i` is what `Get` finds when no earlier pair has its key. */
  lemma {:induction false} GetAt<V>(d: Dict<V>, i: nat)
    requires i < |d|
    requires forall j :: 0 <= j < i ==> d[j].0 != d[i].0
    ensures Get(d, d[i].0) == Some(d[i].1)
  {
    if i > 0 {
      GetAt(d[1..], i - 1);
    }
  }

  /** A dictionary display with two distinct keys. */
  lemma Display2<V>(k0: string, v0: V, k1: string, v1: V)
    requires k0 != k1
    ensures var d := [(k0, v0), (k1, v1)];
      && Keys(d) == [k0, k1]
      && Get(d, k0) == Some(v0) && Get(d, k1) == Some(v1)
  {
    var d := [(k0, v0), (k1, v1)];
    KeysOfPairs(d, [k0, k1]);
    GetAt(d, 0);
    GetAt(d, 1);
  }

  /** A dictionary display with three distinct keys. */
  lemma Display3<V>(k0: string, v0: V, k1: string, v1: V, k2: string, v2: V)
    requires k0 != k1 && k0 != k2 && k1 != k2
    ensures var d := [(k0, v0), (k1, v1), (k2, v2)];
      && Keys(d) == [k0, k1, k2]
      && Get(d, k0) == Some(v0) && Get(d, k1) == Some(v1) && Get(d, k2) == Some(v2)
  {
    var t := [(k1, v1), (k2, v2)];
    Display2(k1, v1, k2, v2);
    assert [(k0, v0), (k1, v1), (k2, v2)] == [(k0, v0)] + t;
    GetCons((k0, v0), t, k0);
    GetCons((k0, v0), t, k1);
    GetCons((k0, v0), t, k2);
  }

  /** A dictionary display with four distinct keys. */
  lemma Display4<V>(k0: string, v0: V, k1: string, v1: V, k2: string, v2: V, k3: string, v3: V)
    requires k0 != k1 && k0 != k2 && k0 != k3 && k1 != k2 && k1 != k3 && k2 != k3
    ensures var d := [(k0, v0), (k1, v1), (k2, v2), (k3, v3)];
      && Keys(d) == [k0, k1, k2, k3]
      && Get(d, k0) == Some(v0) && Get(d, k1) == Some(v1)
      && Get(d, k2) == Some(v2) && Get(d, k3) == Some(v3)
  {
    var t := [(k1, v1), (k2, v2), (k3, v3)];
    Display3(k1, v1, k2, v2, k3, v3);
    assert [(k0, v0), (k1, v1), (k2, v2), (k3, v3)] == [(k0, v0)] + t;
    GetCons((k0, v0), t, k0);
    GetCons((k0, v0), t, k1);
    GetCons((k0, v0), t, k2);
    GetCons((k0, v0), t, k3);
  }

  /** Looking a key up in a dictionary that starts with `x`. */
  lemma GetCons<V>(x: (string, V), t: Dict<V>, k: string)
    ensures Keys([x] + t) == [x.0] + Keys(t)
    ensures Get([x] + t, k) == if x.0 == k then Some(x.1) else Get(t, k)
  {
    KeysCons(x, t);
    var d := [x] + t;
    assert d[0] == x;
    assert d[1..] == t;
  }

  lemma KeysCons<V>(x: (string, V), t: Dict<V>)
    ensures Keys([x] + t) == [x.0] + Keys(t)
  {
    var d := [x] + t;
    var a, b := Keys(d), [x.0] + Keys(t);
    forall i | 0 <= i < |a|
      ensures a[i] == b[i]
    {
      if i > 0 {
        assert d[i] == t[i - 1];
      }
    }
  }

  /** Every key other than `k` looks up the same in `e` as in `d`, and `k`
      finds `v`. */
  ghost predicate GetsAssigned<V>(d: Dict<V>, k: string, v: V, e: Dict<V>) {
    forall k' :: Get(e, k') == if k' == k then Some(v) else Get(d, k')
  }

  lemma GetsAssignedHead<V>(x: (string, V), t: Dict<V>, v: V)
    ensures GetsAssigned([x] + t, x.0, v, [(x.0, v)] + t)
  {
    forall k'
      ensures Get([(x.0, v)] + t, k') == if k' == x.0 then Some(v) else Get([x] + t, k')
    {
      GetCons((x.0, v), t, k');
      GetCons(x, t, k');
    }
  }

  lemma GetsAssignedTail<V>(x: (string, V), t: Dict<V>, k: string, v: V, t': Dict<V>)
    requires GetsAssigned(t, k, v, t')
    requires x.0 != k
    ensures GetsAssigned([x] + t, k, v, [x] + t')
  {
    forall k'
      ensures Get([x] + t', k') == if k' == k then Some(v) else Get([x] + t, k')
    {
      GetCons(x, t', k');
      GetCons(x, t, k');
    }
  }

  lemma KeysTail<V>(x: (string, V), t: Dict<V>, k: string, t': Dict<V>)
    requires k in Keys(t) ==> Keys(t') == Keys(t)
    requires x.0 != k
    ensures k in Keys([x] + t) ==> Keys([x] + t') == Keys([x] + t)
  {
    GetCons(x, t, k);
    GetCons(x, t', k);
  }

  lemma AppendTail<V>(x: (string, V), t: Dict<V>, k: string, v: V, t': Dict<V>)
    requires k !in Keys(t) ==> t' == t + [(k, v)]
    requires x.0 != k
    ensures k !in Keys([x] + t) ==> [x] + t' == ([x] + t) + [(k, v)]
  {
    GetCons(x, t, k);
    if k !in Keys([x] + t) {
      assert k !in Keys(t);
      assert [x] + (t + [(k, v)]) == ([x] + t) + [(k, v)];
    }
  }

  /** `d[k] = v`: an existing key keeps its position, a new key goes last. */
  function Put<V>(d: Dict<V>, k: string, v: V): (r: Dict<V>)
    ensures k in Keys(d) ==> Keys(r) == Keys(d)
    ensures k !in Keys(d) ==> r == d + [(k, v)]
    ensures forall k' :: Get(r, k') == if k' == k then Some(v) else Get(d, k')
  {
    if |d| == 0 then
      GetCons((k, v), [], k);
      [(k, v)]
    else
      var x, t := d[0], d[1..];
      assert d == [x] + t;
      if x.0 == k then
        GetsAssignedHead(x, t, v);
        GetCons(x, t, k);
        GetCons((k, v), t, k);
        [(k, v)] + t
      else
        var t' := Put(t, k, v);
        GetsAssignedTail(x, t, k, v, t');
        KeysTail(x, t, k, t');
        AppendTail(x, t, k, v, t');
        [x] + t'
  }

  lemma PutDistinct<V>(d: Dict<V>, k: string, v: V)
    requires DistinctKeys(d)
    ensures DistinctKeys(Put(d, k, v))
  {
    var r := Put(d, k, v);
    if k in Keys(d) {
      forall i, j | 0 <= i < j < |r|
        ensures r[i].0 != r[j].0
      {
        assert r[i].0 == Keys(r)[i] == Keys(d)[i];
        assert r[j].0 == Keys(r)[j] == Keys(d)[j];
      }
    } else {
      forall i | 0 <= i < |d|
        ensures d[i].0 != k
      {
        assert d[i].0 == Keys(d)[i];
      }
    }
  }

  /** The value the last pair for `k` carries, if any pair does. */
  function LastFor<V>(ps: seq<(string, V)>, k: string): Option<V> {
    if |ps| == 0 then None
    else
      var t := LastFor(ps[1..], k);
      if t.Some? then t else if ps[0].0 == k then Some(ps[0].1) else None
  }

  /** The loop `for k, v in ps: d[k] = v`, which is also `d.update(ps)`. */
  function PutAll<V>(d: Dict<V>, ps: seq<(string, V)>): Dict<V>
    decreases |ps|
  {
    if |ps| == 0 then d else PutAll(Put(d, ps[0].0, ps[0].1), ps[1..])
  }

  lemma {:induction false} PutAllAppend<V>(d: Dict<V>, ps: seq<(string, V)>, k: string, v: V)
    ensures PutAll(d, ps + [(k, v)]) == Put(PutAll(d, ps), k, v)
    decreases |ps|
  {
    if |ps| == 0 {
      assert ps + [(k, v)] == [(k, v)];
    } else {
      assert (ps + [(k, v)])[1..] == ps[1..] + [(k, v)];
      PutAllAppend(Put(d, ps[0].0, ps[0].1), ps[1..], k, v);
    }
  }

  /** After `PutAll`, a key holds the value of its last pair, and a key that
      no pair names keeps its old value (or stays absent). */
  lemma {:induction false} PutAllGet<V>(d: Dict<V>, ps: seq<(string, V)>, k: string)
    ensures Get(PutAll(d, ps), k) == if LastFor(ps, k).Some? then LastFor(ps, k) else Get(d, k)
    decreases |ps|
  {
    if |ps| > 0 {
      PutAllGet(Put(d, ps[0].0, ps[0].1), ps[1..], k);
    }
  }

  lemma {:induction false} LastForNone<V>(ps: seq<(string, V)>, k: string)
    ensures LastFor(ps, k).None? <==> k !in Keys(ps)
  {
    if |ps| > 0 {
      LastForNone(ps[1..], k);
      assert Keys(ps) == [ps[0].0] + Keys(ps[1..]);
    }
  }

  lemma {:induction false} PutAllDistinct<V>(d: Dict<V>, ps: seq<(string, V)>)
    requires DistinctKeys(d)
    ensures DistinctKeys(PutAll(d, ps))
    decreases |ps|
  {
    if |ps| > 0 {
      PutDistinct(d, ps[0].0, ps[0].1);
      PutAllDistinct(Put(d, ps[0].0, ps[0].1), ps[1..]);
    }
  }

  /** In a dictionary without repeated keys the last pair for a key is its only one. */
  lemma {:induction false} LastForDistinct<V>(d: Dict<V>, k: string)
    requires DistinctKeys(d)
    ensures LastFor(d, k) == Get(d, k)
  {
    if |d| > 0 {
      assert DistinctKeys(d[1..]);
      LastForDistinct(d[1..], k);
      if d[0].0 == k {
        assert k !in Keys(d[1..]);
        LastForNone(d[1..], k);
      }
    }
  }

  /** `d.update(e)` for a dictionary `e`: `e` wins on every key it has. */
  lemma UpdateGet<V>(d: Dict<V>, e: Dict<V>, k: string)
    requires DistinctKeys(e)
    ensures Get(PutAll(d, e), k) == if k in Keys(e) then Get(e, k) else Get(d, k)
  {
    PutAllGet(d, e, k);
    LastForDistinct(e, k);
  }
}

=== FILE: generator.dfy ===
/** The response generator: how `generate` resolves its parameters, the
    context block it puts in the prompt, the request it sends, and how it
    reads the model's text back out of the response body. Prompt
    formatting and the model call are parameters. */
module Generator {
  import opened Wrappers
  import opened Text
  import opened Dicts
  import opened Values
  import opened KbConfig
  import opened KbClient

  // ---------------------------------------------------------------------
  // Parameters and request

  datatype Parameters = Parameters(temperature: Float, maxTokens: int, instructions: string)

  /** Temperature and token limit fall back to the configuration only when
      absent, so an explicit zero is kept; the instructions fall back when
      absent or empty. */
  function ResolveParameters(gen: GenerationConfig, temperature: Option<Float>, maxTokens: Option<int>,
                             instructions: Option<string>): (r: Parameters)
    ensures temperature.Some? ==> r.temperature == temperature.value
    ensures temperature.None? ==> r.temperature == gen.temperature
    ensures maxTokens.Some? ==> r.maxTokens == maxTokens.value
    ensures maxTokens.None? ==> r.maxTokens == gen.maxTokens
    ensures instructions.Some? && instructions.value != "" ==> r.instructions == instructions.value
    ensures instructions.None? || instructions.value == "" ==> r.instructions == gen.instructions
  {
    Parameters(temperature.GetOr(gen.temperature), maxTokens.GetOr(gen.maxTokens),
               OrString(instructions, gen.instructions))
  }

  /** The single user message carrying the formatted prompt. */
  function UserMessage(prompt: string): Value {
    Object([("role", Str("user")), ("content", List([Object([("type", Str("text")), ("text", Str(prompt))])]))])
  }

  /** The request body's fields before the message list. */
  function PayloadSettings(gen: GenerationConfig, params: Parameters): (r: Dict<Value>)
    ensures Keys(r) == ["anthropic_version", "max_tokens", "temperature", "system"]
    ensures Get(r, "anthropic_version") == Some(Str(gen.anthropicVersion))
    ensures Get(r, "max_tokens") == Some(Int(params.maxTokens))
    ensures Get(r, "temperature") == Some(Num(params.temperature))
    ensures Get(r, "system") == Some(Str(params.instructions))
  {
    var r := [
      ("anthropic_version", Str(gen.anthropicVersion)),
      ("max_tokens", Int(params.maxTokens)),
      ("temperature", Num(params.temperature)),
      ("system", Str(params.instructions))];
    Display4("anthropic_version", Str(gen.anthropicVersion), "max_tokens", Int(params.maxTokens),
             "temperature", Num(params.temperature), "system", Str(params.instructions));
    r
  }

  /** The request body `generate` sends: the resolved parameters and one
      user message holding the prompt. */
  function Payload(gen: GenerationConfig, params: Parameters, prompt: string): (r: Dict<Value>)
    ensures Keys(r) == Keys(PayloadSettings(gen, params)) + ["messages"]
    ensures forall k :: k != "messages" ==> Get(r, k) == Get(PayloadSettings(gen, params), k)
    ensures Get(r, "messages") == Some(List([UserMessage(prompt)]))
  {
    var head := PayloadSettings(gen, params);
    var messages := List([UserMessage(prompt)]);
    assert "messages" !in Keys(head);
    KeysAppend(head, "messages", messages);
    Put(head, "messages", messages)
  }

  // ---------------------------------------------------------------------
  // The context block

  /** A snippet's header: `Snippet <index>: ` then its metadata as `k=v`
      pairs, trimmed. With no metadata the header is `Snippet <index>:`. */
  function Header(index: int, chunk: Value): (r: Result<string>)
    ensures !chunk.Object? ==> r.Err? && r.error.AttributeError?
    ensures chunk.Object? ==>
      var metadata := Get(chunk.fields, "metadata").GetOr(Null);
      var description := MetadataDescription(metadata);
      && (r.Ok? <==> description.Ok?)
      && (description.Err? ==> r == Err(description.error))
      && (!Truthy(metadata) ==> r == Ok("Snippet " + IntToString(index) + ":"))
      && (description.Ok? && description.value != "" && !IsSpace(description.value[|description.value| - 1]) ==>
            r == Ok("Snippet " + IntToString(index) + ": " + description.value))
      && (description.Ok? && AllSpace(description.value) ==> r == Ok("Snippet " + IntToString(index) + ":"))
      && (description.Ok? && !AllSpace(description.value) ==>
            r == Ok("Snippet " + IntToString(index) + ": " + TrimRight(description.value)))
    ensures r.Ok? ==> "Snippet " + IntToString(index) + ":" <= r.value
  {
    var metadata :- DictGet(chunk, "metadata", Null);
    var description :- MetadataDescription(metadata);
    SnippetHeader(IntToString(index), description);
    SnippetHeaderTrimmed(IntToString(index), description);
    Ok(Strip("Snippet " + IntToString(index) + ":" + " " + description))
  }

  /** Trimming `Snippet <n>: <d>` keeps the `Snippet <n>:` prefix; it drops
      the space when `d` is empty and changes nothing when `d` ends in a
      non-space character. */
  lemma SnippetHeader(n: string, d: string)
    ensures var header := Strip("Snippet " + n + ":" + " " + d);
      && "Snippet " + n + ":" <= header
      && (d == "" ==> header == "Snippet " + n + ":")
      && (d != "" && !IsSpace(d[|d| - 1]) ==> header == "Snippet " + n + ": " + d)
  {
    var prefix := "Snippet " + n + ":";
    assert prefix[0] == 'S';
    assert prefix[|prefix| - 1] == ':';
    StripKeepsPrefix(prefix, d);
    if d == "" {
      StripEmptyTail(prefix);
    }
    if d != "" && !IsSpace(d[|d| - 1]) {
      StripCleanTail(prefix, d);
      assert prefix + " " + d == "Snippet " + n + ": " + d;
    }
  }

  /** Trimming `Snippet <n>: <d>` drops the space when `d` is blank and
      otherwise drops only the whitespace `d` ends with. */
  lemma SnippetHeaderTrimmed(n: string, d: string)
    ensures var header := Strip("Snippet " + n + ":" + " " + d);
      && (AllSpace(d) ==> header == "Snippet " + n + ":")
      && (!AllSpace(d) ==> header == "Snippet " + n + ": " + TrimRight(d))
  {
    SnippetPrefixEnds(n);
    if AllSpace(d) {
      StripBlankTail("Snippet " + n + ":", d);
    } else {
      StripTrailingSpace("Snippet " + n + ":", d);
      ColonSpace("Snippet " + n, TrimRight(d));
    }
  }

  lemma SnippetPrefixEnds(n: string)
    ensures var p := "Snippet " + n + ":"; p != "" && !IsSpace(p[0]) && !IsSpace(p[|p| - 1])
  {
    var p := "Snippet " + n + ":";
    assert p[0] == 'S';
    assert p[|p| - 1] == ':';
  }

  lemma ColonSpace(a: string, x: string)
    ensures a + ":" + " " + x == a + ": " + x
  {
    assert ":" + " " == ": ";
    assert a + ":" + " " + x == a + (":" + " ") + x;
  }

  /** A blank tail is trimmed away together with the space before it. */
  lemma StripBlankTail(p: string, d: string)
    requires p != "" && !IsSpace(p[0]) && !IsSpace(p[|p| - 1])
    requires AllSpace(d)
    ensures Strip(p + " " + d) == p
  {
    AllSpaceCons(' ', d);
    assert p + " " + d == "" + p + ([' '] + d);
    StripPadded("", p, [' '] + d);
  }

  /** A tail that is not blank loses only the whitespace it ends with. */
  lemma StripTrailingSpace(p: string, d: string)
    requires p != "" && !IsSpace(p[0])
    requires !AllSpace(d)
    ensures Strip(p + " " + d) == p + " " + TrimRight(d)
  {
    var t := TrimRight(d);
    SplitTrailing(d);
    StripAroundCore(p, t, d[|t|..], d);
  }

  lemma StripAroundCore(p: string, t: string, b: string, d: string)
    requires p != "" && !IsSpace(p[0])
    requires t != "" && !IsSpace(t[|t| - 1])
    requires AllSpace(b) && d == t + b
    ensures Strip(p + " " + d) == p + " " + t
  {
    CoreEnds(p, t);
    Regroup(p, t, b);
    StripPadded("", p + " " + t, b);
  }

  lemma SplitTrailing(d: string)
    ensures d == TrimRight(d) + d[|TrimRight(d)|..]
    ensures AllSpace(d[|TrimRight(d)|..])
    ensures !AllSpace(d) ==> TrimRight(d) != "" && !IsSpace(TrimRight(d)[|TrimRight(d)| - 1])
  {
  }

  lemma CoreEnds(p: string, t: string)
    requires p != "" && !IsSpace(p[0]) && t != "" && !IsSpace(t[|t| - 1])
    ensures var core := p + " " + t; core != "" && !IsSpace(core[0]) && !IsSpace(core[|core| - 1])
  {
    var core := p + " " + t;
    assert core[0] == p[0];
    assert core[|core| - 1] == t[|t| - 1];
  }

  lemma Regroup(p: string, t: string, b: string)
    ensures p + " " + (t + b) == "" + (p + " " + t) + b
  {
  }

  lemma StripKeepsPrefix(p: string, d: string)
    requires p != "" && !IsSpace(p[0]) && !IsSpace(p[|p| - 1])
    ensures p <= Strip(p + " " + d)
  {
    var raw := p + " " + d;
    assert raw[0] == p[0] && raw[|p| - 1] == p[|p| - 1];
    assert TrimLeft(raw) == raw;
    var trimmed := Strip(raw);
    assert |trimmed| >= |p|;
    assert trimmed[..|p|] == raw[..|p|];
  }

  lemma StripEmptyTail(p: string)
    requires p != "" && !IsSpace(p[0]) && !IsSpace(p[|p| - 1])
    ensures Strip(p + " " + "") == p
  {
    assert p + " " + "" == "" + p + " ";
    StripPadded("", p, " ");
  }

  lemma StripCleanTail(p: string, d: string)
    requires p != "" && !IsSpace(p[0])
    requires d != "" && !IsSpace(d[|d| - 1])
    ensures Strip(p + " " + d) == p + " " + d
  {
    var raw := p + " " + d;
    assert raw[0] == p[0];
    assert raw[|raw| - 1] == d[|d| - 1];
  }

  /** `chunk.get("content", "")`. */
  function ContentOf(chunk: Value): Value
    requires chunk.Object?
  {
    Get(chunk.fields, "content").GetOr(Str(""))
  }

  /** The three lines one chunk contributes: its header, its content, and
      an empty line. */
  function ChunkLines(index: int, chunk: Value): (r: Result<seq<Value>>)
    ensures r.Ok? <==> Header(index, chunk).Ok?
    ensures r.Err? ==> r.error == Header(index, chunk).error
    ensures r.Ok? ==> chunk.Object? && r.value == [Str(Header(index, chunk).value), ContentOf(chunk), Str("")]
  {
    var header :- Header(index, chunk);
    Ok([Str(header), ContentOf(chunk), Str("")])
  }

  /** `for index, item in enumerate(items, start=index)`, concatenating what
      `f` gives for each item; the first failure stops the loop. */
  function Enumerated(f: (int, Value) -> Result<seq<Value>>, items: seq<Value>, index: int): (r: Result<seq<Value>>)
    ensures r.Ok? <==> forall j :: 0 <= j < |items| ==> f(index + j, items[j]).Ok?
    ensures r.Err? ==>
      exists j :: && 0 <= j < |items| && f(index + j, items[j]) == Err(r.error)
                  && forall k :: 0 <= k < j ==> f(index + k, items[k]).Ok?
    decreases |items|
  {
    if |items| == 0 then Ok([])
    else
      var first :- f(index, items[0]);
      var rest :- Enumerated(f, items[1..], index + 1);
      assert forall j :: 1 <= j < |items| ==> items[1..][j - 1] == items[j] && index + 1 + (j - 1) == index + j;
      Ok(first + rest)
  }

  /** When every item gives three lines, item `j` owns lines `3j` to `3j + 2`. */
  lemma {:induction false} EnumeratedAt(f: (int, Value) -> Result<seq<Value>>, items: seq<Value>, index: int, j: nat)
    requires forall i, c :: f(i, c).Ok? ==> |f(i, c).value| == 3
    requires Enumerated(f, items, index).Ok?
    ensures |Enumerated(f, items, index).value| == 3 * |items|
    ensures j < |items| ==>
      (f(index + j, items[j]).Ok? && Enumerated(f, items, index).value[3 * j..3 * j + 3] == f(index + j, items[j]).value)
    decreases |items|
  {
    if |items| > 0 {
      var first := f(index, items[0]).value;
      var rest := Enumerated(f, items[1..], index + 1).value;
      var lines := Enumerated(f, items, index).value;
      assert lines == first + rest;
      EnumeratedAt(f, items[1..], index + 1, if j > 0 then j - 1 else 0);
      if 0 < j < |items| {
        assert items[1..][j - 1] == items[j];
        assert index + 1 + (j - 1) == index + j;
        assert lines[3 * j..3 * j + 3] == rest[3 * (j - 1)..3 * (j - 1) + 3];
      } else if j == 0 {
        assert lines[0..3] == first;
      }
    }
  }

  /** When every item gives three lines and the lines are the `str` values
      of `parts`, item `j` gave `parts[3j]` to `parts[3j + 2]`. */
  lemma EnumeratedParts(f: (int, Value) -> Result<seq<Value>>, items: seq<Value>, index: int, j: nat,
                        parts: seq<string>)
    requires forall i, c :: f(i, c).Ok? ==> |f(i, c).value| == 3
    requires Enumerated(f, items, index).Ok?
    requires |parts| == |Enumerated(f, items, index).value|
    requires forall i :: 0 <= i < |parts| ==> Enumerated(f, items, index).value[i] == Str(parts[i])
    ensures |parts| == 3 * |items|
    ensures j < |items| ==>
      f(index + j, items[j]) == Ok([Str(parts[3 * j]), Str(parts[3 * j + 1]), Str(parts[3 * j + 2])])
  {
    var lines := Enumerated(f, items, index).value;
    EnumeratedAt(f, items, index, j);
    if j < |items| {
      var k := 3 * j;
      assert lines[k..k + 3] == [lines[k], lines[k + 1], lines[k + 2]];
    }
  }

  /** The chunk at position `j` (numbered `j + 1`) is the first whose header fails. */
  predicate FirstBadHeader(chunks: seq<Value>, j: int) {
    && 0 <= j < |chunks|
    && Header(1 + j, chunks[j]).Err?
    && forall k :: 0 <= k < j ==> Header(1 + k, chunks[k]).Ok?
  }

  /** The lines `_build_context_block` collects, numbering the chunks from 1;
      the first chunk whose header fails stops the loop with its error. */
  function ContextLines(chunks: seq<Value>): (r: Result<seq<Value>>)
    ensures r.Ok? <==> forall j :: 0 <= j < |chunks| ==> Header(1 + j, chunks[j]).Ok?
    ensures r.Ok? ==> |r.value| == 3 * |chunks|
    ensures r.Err? ==> exists j :: FirstBadHeader(chunks, j) && Header(1 + j, chunks[j]) == Err(r.error)
    ensures r.Ok? ==> forall j :: 0 <= j < |chunks| ==> r.value[3 * j..3 * j + 3] == ChunkLines(1 + j, chunks[j]).value
  {
    var r := Enumerated(ChunkLines, chunks, 1);
    if r.Ok? then
      EnumeratedAt(ChunkLines, chunks, 1, 0);
      forall j | 0 <= j < |chunks|
        ensures r.value[3 * j..3 * j + 3] == ChunkLines(1 + j, chunks[j]).value
      {
        EnumeratedAt(ChunkLines, chunks, 1, j);
      }
      r
    else
      var j :| && 0 <= j < |chunks| && ChunkLines(1 + j, chunks[j]) == Err(r.error)
               && forall k :: 0 <= k < j ==> ChunkLines(1 + k, chunks[k]).Ok?;
      assert FirstBadHeader(chunks, j);
      r
  }

  /** `_build_context_block`: the collected lines joined by newlines. A
      content that is not a `str` makes the join fail. */
  function BuildContextBlock(chunks: seq<Value>): (r: Result<string>)
    ensures chunks == [] ==> r == Ok("")
    ensures ContextLines(chunks).Err? ==> r == Err(ContextLines(chunks).error)
    ensures ContextLines(chunks).Ok? ==> r == JoinStrs("\n", ContextLines(chunks).value)
  {
    var lines :- ContextLines(chunks);
    JoinStrs("\n", lines)
  }

  /** When no line holds a newline, splitting the block on newlines gives
      the collected lines back. */
  lemma ContextBlockSplits(chunks: seq<Value>)
    requires |chunks| > 0
    requires BuildContextBlock(chunks).Ok?
    requires forall v :: v in ContextLines(chunks).value ==> v.Str? && '\n' !in v.s
    ensures Split(BuildContextBlock(chunks).value, '\n') == Strs(ContextLines(chunks).value)
  {
    var strs := Strs(ContextLines(chunks).value);
    assert forall i :: 0 <= i < |strs| ==> '\n' !in strs[i] by {
      forall i | 0 <= i < |strs|
        ensures '\n' !in strs[i]
      {
        assert ContextLines(chunks).value[i] in ContextLines(chunks).value;
      }
    }
    SplitJoin(strs, '\n');
  }

  /** When no line holds a newline, the block splits back into exactly three
      lines per chunk: chunk `j`, numbered `j + 1`, gives lines `3j` to
      `3j + 2`, which are its header, its content and an empty line. */
  lemma ContextBlockLines(chunks: seq<Value>, j: nat)
    requires |chunks| > 0
    requires BuildContextBlock(chunks).Ok?
    requires forall v :: v in ContextLines(chunks).value ==> v.Str? && '\n' !in v.s
    ensures var parts := Split(BuildContextBlock(chunks).value, '\n');
      && |parts| == 3 * |chunks|
      && (j < |chunks| ==>
           ChunkLines(j + 1, chunks[j]) == Ok([Str(parts[3 * j]), Str(parts[3 * j + 1]), Str(parts[3 * j + 2])]))
  {
    ContextBlockSplits(chunks);
    assert ContextLines(chunks) == Enumerated(ChunkLines, chunks, 1);
    EnumeratedParts(ChunkLines, chunks, 1, j, Split(BuildContextBlock(chunks).value, '\n'));
    assert 1 + j == j + 1;
  }

  // ---------------------------------------------------------------------
  // Reading the response

  /** What one content item contributes: its `text` (`""` when absent) if its
      `type` is `"text"`, nothing otherwise. */
  function ItemTexts(item: Value): (r: seq<Value>)
    requires item.Object?
    ensures Get(item.fields, "type") == Some(Str("text")) ==> r == [Get(item.fields, "text").GetOr(Str(""))]
    ensures Get(item.fields, "type") != Some(Str("text")) ==> r == []
  {
    if Get(item.fields, "type").GetOr(Null) == Str("text") then [Get(item.fields, "text").GetOr(Str(""))] else []
  }

  /** The `text` of every content item whose `type` is `"text"`, in order;
      other items are skipped; an item that is not a dict has no `get`. */
  function ContentTexts(contents: seq<Value>): (r: Result<seq<Value>>)
    ensures contents == [] ==> r == Ok([])
    ensures r.Ok? ==> |r.value| <= |contents|
    ensures r.Ok? <==> forall i :: 0 <= i < |contents| ==> contents[i].Object?
    ensures r.Err? ==> r.error.AttributeError?
    ensures |contents| == 1 && contents[0].Object? ==> r == Ok(ItemTexts(contents[0]))
    decreases |contents|
  {
    if |contents| == 0 then Ok([])
    else
      var kind :- DictGet(contents[0], "type", Null);
      var first := ItemTexts(contents[0]);
      var rest :- ContentTexts(contents[1..]);
      assert forall i :: 1 <= i < |contents| ==> contents[i] == contents[1..][i - 1];
      assert |contents| == 1 ==> rest == [] && first + rest == first;
      Ok(first + rest)
  }

  lemma AppendAssoc<T>(x: seq<T>, y: seq<T>, z: seq<T>)
    ensures x + (y + z) == (x + y) + z
  {
  }

  /** The texts of two runs of items are those of the first run followed by
      those of the second; the first item that is not a dict decides the error. */
  lemma {:induction false} ContentTextsAppend(a: seq<Value>, b: seq<Value>)
    ensures ContentTexts(a).Err? ==> ContentTexts(a + b) == Err(ContentTexts(a).error)
    ensures ContentTexts(a).Ok? && ContentTexts(b).Err? ==> ContentTexts(a + b) == Err(ContentTexts(b).error)
    ensures ContentTexts(a).Ok? && ContentTexts(b).Ok? ==>
      ContentTexts(a + b) == Ok(ContentTexts(a).value + ContentTexts(b).value)
    decreases |a|
  {
    if |a| == 0 {
      assert a + b == b;
      assert ContentTexts(b).Ok? ==> [] + ContentTexts(b).value == ContentTexts(b).value;
    } else {
      assert (a + b)[0] == a[0];
      assert (a + b)[1..] == a[1..] + b;
      ContentTextsAppend(a[1..], b);
      if ContentTexts(a).Ok? && ContentTexts(b).Ok? {
        AppendAssoc(ItemTexts(a[0]), ContentTexts(a[1..]).value, ContentTexts(b).value);
      }
    }
  }

  /** The text items of every output, in order. */
  function OutputTexts(outputs: seq<Value>): (r: Result<seq<Value>>)
    ensures outputs == [] ==> r == Ok([])
    ensures (exists i :: 0 <= i < |outputs| && !outputs[i].Object?) ==> r.Err?
    decreases |outputs|
  {
    if |outputs| == 0 then Ok([])
    else
      var contents :- DictGet(outputs[0], "content", List([]));
      var items :- Iterate(contents);
      var first :- ContentTexts(items);
      var rest :- OutputTexts(outputs[1..]);
      assert forall i :: 1 <= i < |outputs| ==> outputs[i] == outputs[1..][i - 1];
      Ok(first + rest)
  }

  /** The text `generate` returns, read from the parsed response body. */
  function ResponseText(body: Value): (r: Result<string>)
    ensures !body.Object? ==> r.Err?
    ensures body.Object? && "output" !in Keys(body.fields) ==> r == Ok("")
  {
    var outputs := DictGet(body, "output", List([]));
    var outputs :- outputs;
    var items :- Iterate(outputs);
    var parts :- OutputTexts(items);
    JoinStrs("", parts)
  }

  /** A content item of a well-formed response. */
  datatype Part = Part(kind: string, text: string)

  function PartValue(p: Part): Value {
    Object([("type", Str(p.kind)), ("text", Str(p.text))])
  }

  function PartValues(parts: seq<Part>): seq<Value> {
    if |parts| == 0 then [] else [PartValue(parts[0])] + PartValues(parts[1..])
  }

  function OutputValue(parts: seq<Part>): Value {
    Object([("content", List(PartValues(parts)))])
  }

  function OutputValues(outputs: seq<seq<Part>>): seq<Value> {
    if |outputs| == 0 then [] else [OutputValue(outputs[0])] + OutputValues(outputs[1..])
  }

  /** A well-formed response body: a list of outputs, each a list of parts. */
  function BodyValue(outputs: seq<seq<Part>>): Value {
    Object([("output", List(OutputValues(outputs)))])
  }

  /** The texts of the `"text"` parts, in order. */
  function TextOfParts(parts: seq<Part>): string {
    if |parts| == 0 then ""
    else (if parts[0].kind == "text" then parts[0].text else "") + TextOfParts(parts[1..])
  }

  function TextOfOutputs(outputs: seq<seq<Part>>): string {
    if |outputs| == 0 then "" else TextOfParts(outputs[0]) + TextOfOutputs(outputs[1..])
  }

  /** Concatenating the strings of two lists is concatenating their concatenations. */
  lemma {:induction false} ConcatOfAppend(a: seq<Value>, b: seq<Value>)
    requires forall i :: 0 <= i < |a| ==> a[i].Str?
    requires forall i :: 0 <= i < |b| ==> b[i].Str?
    ensures forall i :: 0 <= i < |a + b| ==> (a + b)[i].Str?
    ensures Concat(Strs(a + b)) == Concat(Strs(a)) + Concat(Strs(b))
    decreases |b|
  {
    if |b| == 0 {
      assert a + b == a;
    } else {
      var b' := b[..|b| - 1];
      var last := b[|b| - 1];
      assert b == b' + [last];
      assert a + b == (a + b') + [last];
      ConcatOfAppend(a, b');
      assert Strs(a + b) == Strs(a + b') + [last.s];
      assert Strs(b) == Strs(b') + [last.s];
      ConcatAppend(Strs(a + b'), last.s);
      ConcatAppend(Strs(b'), last.s);
    }
  }

  /** A well-formed part contributes its text exactly when its type is `"text"`. */
  lemma ContentTextsOfPart(p: Part, tail: seq<Value>)
    requires ContentTexts(tail).Ok?
    ensures ContentTexts([PartValue(p)] + tail)
         == Ok((if p.kind == "text" then [Str(p.text)] else []) + ContentTexts(tail).value)
  {
    var contents := [PartValue(p)] + tail;
    Display2("type", Str(p.kind), "text", Str(p.text));
    assert contents[0] == PartValue(p);
    assert contents[1..] == tail;
  }

  /** The texts a part contributes come first in the concatenation. */
  lemma ConcatAfterPart(p: Part, rest: seq<Value>)
    requires forall i :: 0 <= i < |rest| ==> rest[i].Str?
    ensures var all := (if p.kind == "text" then [Str(p.text)] else []) + rest;
      && (forall i :: 0 <= i < |all| ==> all[i].Str?)
      && Concat(Strs(all)) == (if p.kind == "text" then p.text else "") + Concat(Strs(rest))
  {
    var first: seq<Value> := if p.kind == "text" then [Str(p.text)] else [];
    assert forall i :: 0 <= i < |first| ==> first[i].Str?;
    ConcatOfAppend(first, rest);
    assert Concat(Strs(first)) == (if p.kind == "text" then p.text else "");
  }

  lemma {:induction false} ContentTextsOfParts(parts: seq<Part>)
    ensures var r := ContentTexts(PartValues(parts));
      && r.Ok?
      && (forall i :: 0 <= i < |r.value| ==> r.value[i].Str?)
      && Concat(Strs(r.value)) == TextOfParts(parts)
    decreases |parts|
  {
    if |parts| > 0 {
      var tail := PartValues(parts[1..]);
      ContentTextsOfParts(parts[1..]);
      ContentTextsOfPart(parts[0], tail);
      ConcatAfterPart(parts[0], ContentTexts(tail).value);
    }
  }

  /** A well-formed output contributes the texts of its parts. */
  lemma OutputTextsOfOutput(parts: seq<Part>, tail: seq<Value>)
    requires ContentTexts(PartValues(parts)).Ok?
    requires OutputTexts(tail).Ok?
    ensures OutputTexts([OutputValue(parts)] + tail)
         == Ok(ContentTexts(PartValues(parts)).value + OutputTexts(tail).value)
  {
    var outputs := [OutputValue(parts)] + tail;
    GetAt([("content", List(PartValues(parts)))], 0);
    assert outputs[0] == OutputValue(parts);
    assert outputs[1..] == tail;
  }

  lemma {:induction false} OutputTextsOfOutputs(outputs: seq<seq<Part>>)
    ensures var r := OutputTexts(OutputValues(outputs));
      && r.Ok?
      && (forall i :: 0 <= i < |r.value| ==> r.value[i].Str?)
      && Concat(Strs(r.value)) == TextOfOutputs(outputs)
    decreases |outputs|
  {
    if |outputs| > 0 {
      var tail := OutputValues(outputs[1..]);
      OutputTextsOfOutputs(outputs[1..]);
      ContentTextsOfParts(outputs[0]);
      OutputTextsOfOutput(outputs[0], tail);
      var first := ContentTexts(PartValues(outputs[0])).value;
      ConcatOfAppend(first, OutputTexts(tail).value);
    }
  }

  /** On a well-formed body, the returned text is the in-order concatenation
      of the `"text"` parts of every output. */
  lemma ResponseTextOfBody(outputs: seq<seq<Part>>)
    ensures ResponseText(BodyValue(outputs)) == Ok(TextOfOutputs(outputs))
  {
    OutputTextsOfOutputs(outputs);
  }

  // ---------------------------------------------------------------------
  // generate

  /** `generate`. `formatPrompt` stands for `str.format` on the context
      template, and `invokeModel` for the model call together with the JSON
      encoding of the request and decoding of the response body. */
  function Generate(config: BedrockConfig, query: string, chunks: seq<Value>,
                    temperature: Option<Float>, maxTokens: Option<int>, instructions: Option<string>,
                    formatPrompt: (string, string, string) -> Result<string>,
                    invokeModel: (string, Dict<Value>) -> Result<Value>): (r: Result<string>)
    ensures BuildContextBlock(chunks).Err? ==> r == Err(BuildContextBlock(chunks).error)
    ensures r.Ok? ==>
      && BuildContextBlock(chunks).Ok?
      && var prompt := formatPrompt(config.generation.contextTemplate, BuildContextBlock(chunks).value, query);
      && prompt.Ok?
      && var params := ResolveParameters(config.generation, temperature, maxTokens, instructions);
      && var body := invokeModel(config.modelId, Payload(config.generation, params, prompt.value));
      && body.Ok?
      && r == ResponseText(body.value)
    ensures BuildContextBlock(chunks).Ok? ==>
      var prompt := formatPrompt(config.generation.contextTemplate, BuildContextBlock(chunks).value, query);
      var params := ResolveParameters(config.generation, temperature, maxTokens, instructions);
      && (prompt.Err? ==> r == Err(prompt.error))
      && (prompt.Ok? ==>
            var body := invokeModel(config.modelId, Payload(config.generation, params, prompt.value));
            && (body.Err? ==> r == Err(body.error))
            && (body.Ok? ==> r == ResponseText(body.value)))
  {
    var context :- BuildContextBlock(chunks);
    var params := ResolveParameters(config.generation, temperature, maxTokens, instructions);
    var prompt :- formatPrompt(config.generation.contextTemplate, context, query);
    var body :- invokeModel(config.modelId, Payload(config.generation, params, prompt));
    ResponseText(body)
  }
}

=== FILE: invoke_agent.dfy ===
/** The agent invocation helper: turning each streamed event into a record
    that can be logged as JSON, and collecting the streamed text. The agent
    service, the session-id generator and the codec are parameters. */
module InvokeAgent {
  import opened Wrappers
  import opened Text
  import opened Dicts
  import opened Values

  /** What `_serialize_event` returns for one event. */
  datatype Record =
    | ChunkRecord(text: string)
    | TraceRecord(content: Value)
    | EventRecord(payload: Dict<Value>)

  /** The dictionary form of a record, as the chunk log holds it. */
  function RecordValue(r: Record): Value {
    match r
    case ChunkRecord(text) => Object([("type", Str("chunk")), ("text", Str(text))])
    case TraceRecord(content) => Object([("type", Str("trace")), ("content", content)])
    case EventRecord(payload) => Object([("type", Str("event")), ("payload", Object(payload))])
  }

  /** The `"type"` entry of a record's dictionary is `"chunk"` exactly for
      chunk records, which is the test the invocation loop makes. */
  lemma RecordTypeTag(r: Record)
    ensures RecordValue(r).Object?
    ensures Get(RecordValue(r).fields, "type") == Some(Str("chunk")) <==> r.ChunkRecord?
  {
  }

  /** `b.decode("utf-8")` for bytes, `str(b)` for anything else. */
  function DecodeOrStr(v: Value, codec: Codec): (r: Result<string>)
    ensures v.Bytes? ==> r == codec.decodeUtf8(v.data)
    ensures !v.Bytes? ==> r == Ok(PyStr(v))
  {
    if v.Bytes? then codec.decodeUtf8(v.data) else Ok(PyStr(v))
  }

  /** The trace payload holds a nested `trace` dictionary whose `bytes`
      entry is present and not `None`. */
  predicate HasNestedBytes(trace: Dict<Value>) {
    && Get(trace, "trace").Some?
    && Get(trace, "trace").value.Object?
    && !Get(Get(trace, "trace").value.fields, "bytes").GetOr(Null).Null?
  }

  /** The bytes of a trace payload: those of a nested `trace` dictionary when
      present and not `None`, otherwise the payload's own (`None` if absent). */
  function TraceBytes(trace: Dict<Value>): (r: Value)
    ensures HasNestedBytes(trace) ==> r == Get(Get(trace, "trace").value.fields, "bytes").value
    ensures !HasNestedBytes(trace) ==> r == Get(trace, "bytes").GetOr(Null)
  {
    var nested := Get(trace, "trace").GetOr(Null);
    var inner := if nested.Object? then Get(nested.fields, "bytes").GetOr(Null) else Null;
    if inner.Null? then Get(trace, "bytes").GetOr(Null) else inner
  }

  /** A value of the fallback payload: a dictionary holding `bytes` is
      replaced by their decoded text, which fails for anything but bytes;
      every other value is kept. */
  function SanitizeValue(v: Value, codec: Codec): (r: Result<Value>)
    ensures !(v.Object? && "bytes" in Keys(v.fields)) ==> r == Ok(v)
    ensures v.Object? && "bytes" in Keys(v.fields) ==>
      var b := Get(v.fields, "bytes").value;
      && (b.Bytes? ==> r.Ok? == codec.decodeUtf8(b.data).Ok?)
      && (r.Ok? ==> b.Bytes? && r == Ok(Str(codec.decodeUtf8(b.data).value)))
      && (!b.Bytes? ==> r.Err? && r.error.AttributeError?)
  {
    if !v.Object? || Get(v.fields, "bytes").None? then Ok(v)
    else
      var b := Get(v.fields, "bytes").value;
      if b.Bytes? then DecodedText(b.data, codec)
      else Err(AttributeError("'" + TypeName(b) + "' object has no attribute 'decode'"))
  }

  /** `b.decode("utf-8")` as a `str` value. */
  function DecodedText(data: seq<bv8>, codec: Codec): (r: Result<Value>)
    ensures r.Ok? == codec.decodeUtf8(data).Ok?
    ensures r.Ok? ==> r.value == Str(codec.decodeUtf8(data).value)
  {
    var text :- codec.decodeUtf8(data);
    Ok(Str(text))
  }

  /** Entry `i` of the event is the first whose value cannot be sanitized. */
  predicate FirstBadEntry(fields: Dict<Value>, codec: Codec, i: int) {
    && 0 <= i < |fields|
    && SanitizeValue(fields[i].1, codec).Err?
    && forall j :: 0 <= j < i ==> SanitizeValue(fields[j].1, codec).Ok?
  }

  /** Each entry of the event with its value sanitized, in order; the
      first entry that cannot be sanitized gives the error. */
  function SanitizedEntries(fields: Dict<Value>, codec: Codec): (r: Result<Dict<Value>>)
    ensures r.Ok? <==> forall i :: 0 <= i < |fields| ==> SanitizeValue(fields[i].1, codec).Ok?
    ensures r.Ok? ==> |r.value| == |fields|
    ensures r.Ok? ==> forall i :: 0 <= i < |fields| ==> r.value[i] == (fields[i].0, SanitizeValue(fields[i].1, codec).value)
    ensures r.Err? ==> exists i :: FirstBadEntry(fields, codec, i) && SanitizeValue(fields[i].1, codec) == Err(r.error)
    decreases |fields|
  {
    if |fields| == 0 then Ok([])
    else
      var first :- SanitizeValue(fields[0].1, codec);
      var rest :- SanitizedEntries(fields[1..], codec);
      assert forall i :: 1 <= i < |fields| ==> fields[1..][i - 1] == fields[i];
      Ok([(fields[0].0, first)] + rest)
  }

  /** The fallback payload: `payload[key] = value` for each entry of the
      event in order, after sanitizing the value. */
  function SanitizedPayload(fields: Dict<Value>, codec: Codec): (r: Result<Dict<Value>>)
    ensures r.Ok? <==> SanitizedEntries(fields, codec).Ok?
    ensures r.Ok? ==> r.value == PutAll([], SanitizedEntries(fields, codec).value)
  {
    var entries :- SanitizedEntries(fields, codec);
    Ok(PutAll([], entries))
  }

  /** The payload holds every key of the event and no other, once each, and
      each key maps to the sanitized value of its last entry; with distinct
      keys, as a Python dictionary has, that is the key's own entry. */
  lemma SanitizedPayloadGet(fields: Dict<Value>, codec: Codec, k: string)
    requires SanitizedPayload(fields, codec).Ok?
    ensures DistinctKeys(SanitizedPayload(fields, codec).value)
    ensures k in Keys(SanitizedPayload(fields, codec).value) <==> k in Keys(fields)
    ensures Get(SanitizedPayload(fields, codec).value, k) == LastFor(SanitizedEntries(fields, codec).value, k)
  {
    var ps := SanitizedEntries(fields, codec).value;
    PutAllDistinct([], ps);
    PutAllGet([], ps, k);
    LastForNone(ps, k);
    assert Keys(ps) == Keys(fields);
  }

  /** With distinct keys, entry `i` of the event maps to its own sanitized value. */
  lemma SanitizedPayloadEntry(fields: Dict<Value>, codec: Codec, i: nat)
    requires DistinctKeys(fields) && i < |fields|
    requires SanitizedPayload(fields, codec).Ok?
    ensures Get(SanitizedPayload(fields, codec).value, fields[i].0) == Some(SanitizeValue(fields[i].1, codec).value)
  {
    var ps := SanitizedEntries(fields, codec).value;
    SanitizedPayloadGet(fields, codec, fields[i].0);
    assert DistinctKeys(ps);
    LastForDistinct(ps, fields[i].0);
    GetAt(ps, i);
  }

  /** `_serialize_event`. A chunk dictionary wins over a trace dictionary;
      anything else becomes the fallback record. A trace whose text is not
      JSON is kept as text; a decoding failure is not caught. */
  function SerializeEvent(event: Value, codec: Codec): (r: Result<Record>)
    ensures !event.Object? ==> r.Err? && r.error.AttributeError?
    ensures event.Object? && Get(event.fields, "chunk").GetOr(Null).Object? ==>
      var chunk := Get(event.fields, "chunk").GetOr(Null);
      var text := DecodeOrStr(Get(chunk.fields, "bytes").GetOr(Bytes([])), codec);
      r == if text.Ok? then Ok(ChunkRecord(text.value)) else Err(text.error)
    ensures r.Ok? ==> event.Object?
    ensures r.Ok? && r.value.TraceRecord? ==>
      && !Get(event.fields, "chunk").GetOr(Null).Object?
      && Get(event.fields, "trace").GetOr(Null).Object?
      && var text := DecodeOrStr(TraceBytes(Get(event.fields, "trace").GetOr(Null).fields), codec);
      && text.Ok?
      && r.value.content == (if codec.parseJson(text.value).Ok? then codec.parseJson(text.value).value else Str(text.value))
    ensures r.Ok? && r.value.EventRecord? ==>
      && !Get(event.fields, "chunk").GetOr(Null).Object?
      && !Get(event.fields, "trace").GetOr(Null).Object?
      && Ok(r.value.payload) == SanitizedPayload(event.fields, codec)
    ensures r.Ok? && r.value.ChunkRecord? ==> Get(event.fields, "chunk").GetOr(Null).Object?
    ensures event.Object? && !Get(event.fields, "chunk").GetOr(Null).Object?
            && Get(event.fields, "trace").GetOr(Null).Object? ==>
      var text := DecodeOrStr(TraceBytes(Get(event.fields, "trace").GetOr(Null).fields), codec);
      && (r.Ok? <==> text.Ok?)
      && (r.Ok? ==> r.value.TraceRecord?)
      && (r.Err? ==> r.error == text.error)
    ensures event.Object? && !Get(event.fields, "chunk").GetOr(Null).Object?
            && !Get(event.fields, "trace").GetOr(Null).Object? ==>
      var payload := SanitizedPayload(event.fields, codec);
      && (r.Ok? <==> payload.Ok?)
      && (r.Ok? ==> r.value.EventRecord?)
      && (r.Err? ==> r.error == payload.error)
  {
    var chunk :- DictGet(event, "chunk", Null);
    if chunk.Object? then
      var text :- DecodeOrStr(Get(chunk.fields, "bytes").GetOr(Bytes([])), codec);
      Ok(ChunkRecord(text))
    else
      var trace := Get(event.fields, "trace").GetOr(Null);
      if trace.Object? then
        var text :- DecodeOrStr(TraceBytes(trace.fields), codec);
        var content := match codec.parseJson(text)
          case Ok(parsed) => parsed
          case Err(_) => Str(text);
        Ok(TraceRecord(content))
      else
        var payload :- SanitizedPayload(event.fields, codec);
        Ok(EventRecord(payload))
  }

  /** The text the chunk records carry, in order. */
  function ChunkText(records: seq<Record>): string {
    if |records| == 0 then ""
    else
      var last := records[|records| - 1];
      ChunkText(records[..|records| - 1]) + (if last.ChunkRecord? then last.text else "")
  }

  /** What `invoke_agent` returns, without the output file paths. */
  datatype AgentRun = AgentRun(sessionId: string, text: string, records: seq<Record>)

  /** Event `i` is the first whose serialization fails. */
  predicate FirstBadEvent(events: seq<Value>, codec: Codec, i: int) {
    && 0 <= i < |events|
    && SerializeEvent(events[i], codec).Err?
    && forall j :: 0 <= j < i ==> SerializeEvent(events[j], codec).Ok?
  }

  /** The events of `response.get("responseStream", [])`. */
  function StreamEvents(response: Value): (r: Result<seq<Value>>)
    ensures response.Object? && "responseStream" !in Keys(response.fields) ==> r == Ok([])
    ensures response.Object? && Get(response.fields, "responseStream").Some?
            && Get(response.fields, "responseStream").value.List? ==>
      r == Ok(Get(response.fields, "responseStream").value.items)
    ensures !response.Object? ==> r.Err?
  {
    var stream :- DictGet(response, "responseStream", List([]));
    Iterate(stream)
  }

  /** `invoke_agent`. The session id is the given one unless it is absent or
      empty, in which case `freshId` (a new random id) is used. `service`
      stands for the agent runtime call, given the agent id, alias id,
      session id and prompt. One record is kept per event, in order, and the
      returned text is that of the chunk records; the first event that
      cannot be serialized ends the call with its error. */
  method Invoke(prompt: string, agentId: string, agentAliasId: string, sessionId: Option<string>,
                freshId: string, service: (string, string, string, string) -> Result<Value>, codec: Codec)
    returns (r: Result<AgentRun>)
    ensures var response := service(agentId, agentAliasId, OrString(sessionId, freshId), prompt);
      response.Err? ==> r == Err(response.error)
    ensures r.Ok? ==>
      && var response := service(agentId, agentAliasId, OrString(sessionId, freshId), prompt);
      && response.Ok?
      && StreamEvents(response.value).Ok?
      && var events := StreamEvents(response.value).value;
      && r.value.sessionId == OrString(sessionId, freshId)
      && |r.value.records| == |events|
      && (forall i :: 0 <= i < |events| ==> SerializeEvent(events[i], codec) == Ok(r.value.records[i]))
      && r.value.text == ChunkText(r.value.records)
    ensures var response := service(agentId, agentAliasId, OrString(sessionId, freshId), prompt);
      response.Ok? && StreamEvents(response.value).Err? ==> r == Err(StreamEvents(response.value).error)
    ensures r.Err? ==>
      var response := service(agentId, agentAliasId, OrString(sessionId, freshId), prompt);
      || response.Err?
      || StreamEvents(response.value).Err?
      || var events := StreamEvents(response.value).value;
         exists i :: FirstBadEvent(events, codec, i) && SerializeEvent(events[i], codec) == Err(r.error)
  {
    var session := OrString(sessionId, freshId);
    var response :- service(agentId, agentAliasId, session, prompt);
    var events :- StreamEvents(response);
    var records, text := CollectRecords(events, e => SerializeEvent(e, codec));
    if records.Err? {
      var i :| 0 <= i < |events| && SerializeEvent(events[i], codec) == Err(records.error)
               && forall j :: 0 <= j < i ==> SerializeEvent(events[j], codec).Ok?;
      assert FirstBadEvent(events, codec, i);
      return Err(records.error);
    }
    return Ok(AgentRun(session, text, records.value));
  }

  /** The loop of `invoke_agent`, for the serializer `serialize`: one record
      per event, in order, with the text of the chunk records joined; the
      first event that cannot be serialized stops it with its error. */
  method CollectRecords(events: seq<Value>, serialize: Value -> Result<Record>) returns (r: Result<seq<Record>>, text: string)
    ensures r.Ok? ==>
      && |r.value| == |events|
      && (forall i :: 0 <= i < |events| ==> serialize(events[i]) == Ok(r.value[i]))
      && text == ChunkText(r.value)
    ensures r.Err? ==>
      exists i :: && 0 <= i < |events| && serialize(events[i]) == Err(r.error)
                  && forall j :: 0 <= j < i ==> serialize(events[j]).Ok?
  {
    var segments: seq<string> := [];
    var records: seq<Record> := [];
    var i := 0;
    while i < |events|
      invariant 0 <= i <= |events|
      invariant |records| == i
      invariant forall j :: 0 <= j < i ==> serialize(events[j]) == Ok(records[j])
      invariant Concat(segments) == ChunkText(records)
    {
      var serialized := serialize(events[i]);
      if serialized.Err? {
        return Err(serialized.error), "";
      }
      var record := serialized.value;
      assert (records + [record])[..i] == records;
      if record.ChunkRecord? {
        ConcatAppend(segments, record.text);
        segments := segments + [record.text];
      }
      records := records + [record];
      i := i + 1;
    }
    return Ok(records), Concat(segments);
  }

  /** Only chunk records contribute text: a run whose events are all traces
      or other events yields an empty response. */
  lemma {:induction false} NoChunksNoText(records: seq<Record>)
    requires forall i :: 0 <= i < |records| ==> !records[i].ChunkRecord?
    ensures ChunkText(records) == ""
  {
    if |records| > 0 {
      NoChunksNoText(records[..|records| - 1]);
    }
  }

  /** The text of a run is the concatenation of the texts of its parts. */
  lemma {:induction false} ChunkTextAppend(a: seq<Record>, b: seq<Record>)
    ensures ChunkText(a + b) == ChunkText(a) + ChunkText(b)
    decreases |b|
  {
    if |b| > 0 {
      var b' := b[..|b| - 1];
      assert (a + b)[..|a + b| - 1] == a + b';
      var last := b[|b| - 1];
      var tail := if last.ChunkRecord? then last.text else "";
      assert (a + b)[|a + b| - 1] == last;
      ChunkTextAppend(a, b');
      assert ChunkText(b) == ChunkText(b') + tail;
      assert ChunkText(a + b) == (ChunkText(a) + ChunkText(b')) + tail;
    } else {
      assert a + b == a;
    }
  }
}

=== FILE: kb_client.dfy ===
/** The knowledge-base client: the request `retrieve` sends, the records it
    makes of the response, and the plain-text summary of retrieved chunks.
    The retrieval service itself is a parameter. */
module KbClient {
  import opened Wrappers
  import opened Text
  import opened Dicts
  import opened Values
  import opened KbConfig
  import ToolsConfig

  const EmptyQueryError := ValueError("Query cannot be empty")

  /** The three keyword arguments of the service's `retrieve` call. */
  datatype RetrieveRequest = RetrieveRequest(
    knowledgeBaseId: string,
    retrievalConfiguration: Dict<Value>,
    retrievalQuery: Dict<Value>)

  /** The `vectorSearchConfiguration` block `retrieve` sends. The block is
      fresh, so assigning its `filter` key appends a third entry. */
  function SearchBlock(topK: int, searchType: string, filter: Option<Value>): (r: Dict<Value>)
    ensures Get(r, "numberOfResults") == Some(Int(topK))
    ensures Get(r, "overrideSearchType") == Some(Str(searchType))
    ensures filter.None? ==> Keys(r) == ["numberOfResults", "overrideSearchType"]
    ensures filter.Some? ==>
      Keys(r) == ["numberOfResults", "overrideSearchType", "filter"] && Get(r, "filter") == filter
  {
    var block := [("numberOfResults", Int(topK)), ("overrideSearchType", Str(searchType))];
    if filter.Some? then
      Display3("numberOfResults", Int(topK), "overrideSearchType", Str(searchType), "filter", filter.value);
      block + [("filter", filter.value)]
    else
      Display2("numberOfResults", Int(topK), "overrideSearchType", Str(searchType));
      block
  }

  /** `metadata_dict_from_key_values(metadata_filters or {})`: a payload
      exactly when there are metadata pairs. */
  function FilterPayload(metadataFilters: Option<Dict<string>>): (r: Option<Value>)
    ensures r.Some? <==> metadataFilters.Some? && |metadataFilters.value| > 0
    ensures r.Some? ==> r == MetadataDictFromKeyValues(metadataFilters.value)
  {
    MetadataDictFromKeyValues(metadataFilters.GetOr([]))
  }

  /** The request-building half of `retrieve`. A blank query is rejected.
      The count and the search type fall back to the configuration when they
      are absent or falsy (so an explicit 0 falls back too), and the filter
      is attached exactly when there are metadata pairs. */
  function BuildRetrieveRequest(config: BedrockConfig, query: string, metadataFilters: Option<Dict<string>>,
                                numberOfResults: Option<int>, searchType: Option<string>): (r: Result<RetrieveRequest>)
    ensures r.Err? <==> AllSpace(query)
    ensures r.Err? ==> r.error == EmptyQueryError
    ensures r.Ok? ==> r.value.knowledgeBaseId == config.knowledgeBaseId
    ensures r.Ok? ==> r.value.retrievalQuery == [("text", Str(query))]
    ensures r.Ok? ==> Keys(r.value.retrievalConfiguration) == ["vectorSearchConfiguration"]
    ensures r.Ok? ==>
      Get(r.value.retrievalConfiguration, "vectorSearchConfiguration") == Some(Object(SearchBlock(
        OrInt(numberOfResults, config.retrieval.topK),
        OrString(searchType, config.retrieval.searchType),
        FilterPayload(metadataFilters))))
  {
    if Strip(query) == "" then Err(EmptyQueryError)
    else
      var filter := FilterPayload(metadataFilters);
      var topK := OrInt(numberOfResults, config.retrieval.topK);
      var resolvedSearchType := OrString(searchType, config.retrieval.searchType);
      var retrievalConfiguration := [("vectorSearchConfiguration", Object(SearchBlock(topK, resolvedSearchType, filter)))];
      KeysOfPairs(retrievalConfiguration, ["vectorSearchConfiguration"]);
      GetAt(retrievalConfiguration, 0);
      Ok(RetrieveRequest(config.knowledgeBaseId, retrievalConfiguration, [("text", Str(query))]))
  }

  /** With the default search type, `retrieve` sends the same block as the
      tools' `retrieval_configuration`, given the count `retrieve` resolved. */
  lemma SearchBlockMatchesToolsBlock(topK: int, filter: Option<Value>)
    requires filter.Some? ==> filter.value.Object? && |filter.value.fields| > 0
    ensures SearchBlock(topK, ToolsConfig.OverrideSearchType, filter)
         == ToolsConfig.VectorSearchConfiguration(topK, filter)
  {
    assert filter.Some? ==> Truthy(filter.value);
  }

  /** The two builders default differently: an explicit count of 0 falls
      back to the configured `top_k` here, but is sent as 0 by the tools'
      `retrieval_configuration`. */
  lemma ZeroCountDefaultsDiffer(config: BedrockConfig, query: string)
    requires !AllSpace(query) && config.retrieval.topK != 0
    ensures var r := BuildRetrieveRequest(config, query, None, Some(0), None);
      && r.Ok?
      && Get(r.value.retrievalConfiguration, "vectorSearchConfiguration")
           == Some(Object(SearchBlock(config.retrieval.topK, config.retrieval.searchType, None)))
    ensures Get(ToolsConfig.RetrievalConfiguration(Some(0), None), "vectorSearchConfiguration")
         == Some(Object(ToolsConfig.VectorSearchConfiguration(0, None)))
  {
  }

  /** One formatted record: `content`, `score`, `metadata`, `referencedDocuments`. */
  function Record(content: Value, score: Value, metadata: Value, referencedDocuments: Value): Value {
    Object([("content", content), ("score", score), ("metadata", metadata),
            ("referencedDocuments", referencedDocuments)])
  }

  /** The record made of one retrieval result. A result or a `content` that
      is not a dict has no `get`; every missing field takes its default:
      content `""`, score `None`, metadata `{}`, documents `[]`. */
  function FormatResult(item: Value): (r: Result<Value>)
    ensures !item.Object? ==> r.Err? && r.error.AttributeError?
    ensures item.Object? ==>
      var content := Get(item.fields, "content").GetOr(Object([]));
      && (r.Ok? <==> content.Object?)
      && (!content.Object? ==> r.error.AttributeError?)
      && (content.Object? ==>
            r == Ok(Record(Get(content.fields, "text").GetOr(Str("")), Get(item.fields, "score").GetOr(Null),
                           Get(item.fields, "metadata").GetOr(Object([])),
                           Get(item.fields, "referencedDocuments").GetOr(List([])))))
    ensures item == Object([]) ==> r == Ok(Record(Str(""), Null, Object([]), List([])))
    ensures r.Ok? ==> r.value.Object? && Keys(r.value.fields) == ["content", "score", "metadata", "referencedDocuments"]
  {
    var content :- DictGet(item, "content", Object([]));
    var text :- DictGet(content, "text", Str(""));
    var fields := item.fields;
    var record := Record(text, Get(fields, "score").GetOr(Null), Get(fields, "metadata").GetOr(Object([])),
                         Get(fields, "referencedDocuments").GetOr(List([])));
    KeysOfPairs(record.fields, ["content", "score", "metadata", "referencedDocuments"]);
    Ok(record)
  }

  /** A result whose `content` is a dict holding `text`: the record takes that
      text and the result's own score, metadata and documents, each defaulted
      when absent, so a result carrying all four keeps them unchanged. */
  lemma FormatResultOfFields(fields: Dict<Value>, content: Dict<Value>, text: Value)
    requires Get(fields, "content") == Some(Object(content))
    requires Get(content, "text") == Some(text)
    ensures FormatResult(Object(fields))
         == Ok(Record(text, Get(fields, "score").GetOr(Null), Get(fields, "metadata").GetOr(Object([])),
                      Get(fields, "referencedDocuments").GetOr(List([]))))
  {
  }

  /** `response.get("retrievalResults", [])`, iterated. */
  function ResultItems(response: Value): (r: Result<seq<Value>>)
    ensures response.Object? && "retrievalResults" !in Keys(response.fields) ==> r == Ok([])
    ensures response.Object? && Get(response.fields, "retrievalResults").Some?
            && Get(response.fields, "retrievalResults").value.List? ==>
      r == Ok(Get(response.fields, "retrievalResults").value.items)
    ensures !response.Object? ==> r.Err?
  {
    var results :- DictGet(response, "retrievalResults", List([]));
    Iterate(results)
  }

  /** Result `i` is the first that cannot be formatted. */
  predicate FirstBadResult(items: seq<Value>, i: int) {
    && 0 <= i < |items|
    && FormatResult(items[i]).Err?
    && forall j :: 0 <= j < i ==> FormatResult(items[j]).Ok?
  }

  /** `r` is the outcome of formatting the results of `response`: the error
      of reading them, or one record per result in order, or the error of the
      first result that cannot be formatted. */
  ghost predicate FormatsTo(response: Value, r: Result<seq<Value>>) {
    match ResultItems(response)
    case Err(e) => r == Err(e)
    case Ok(items) =>
      if r.Ok? then
        |r.value| == |items| && forall i :: 0 <= i < |items| ==> FormatResult(items[i]) == Ok(r.value[i])
      else
        exists i :: FirstBadResult(items, i) && FormatResult(items[i]) == Err(r.error)
  }

  /** The formatting loop of `retrieve`: one record per retrieval result, in
      order; the first malformed result stops it. */
  method FormatResults(response: Value) returns (r: Result<seq<Value>>)
    ensures response.Object? && "retrievalResults" !in Keys(response.fields) ==> r == Ok([])
    ensures FormatsTo(response, r)
  {
    var iterated := ResultItems(response);
    if iterated.Err? {
      return Err(iterated.error);
    }
    var items := iterated.value;
    r := MapIndexed((_: int, item: Value) => FormatResult(item), items, 0);
    if r.Err? {
      var i :| 0 <= i < |items| && FormatResult(items[i]) == Err(r.error)
               && forall j :: 0 <= j < i ==> FormatResult(items[j]).Ok?;
      assert FirstBadResult(items, i);
    }
  }

  /** `retrieve`: build the request, call the service, format the response.
      A blank query fails before the service is called, whatever it would do;
      a service error is passed through; otherwise the outcome is that of
      formatting the service's response. */
  method Retrieve(config: BedrockConfig, query: string, metadataFilters: Option<Dict<string>>,
                  numberOfResults: Option<int>, searchType: Option<string>,
                  service: RetrieveRequest -> Result<Value>)
    returns (r: Result<seq<Value>>)
    ensures AllSpace(query) ==> r == Err(EmptyQueryError)
    ensures !AllSpace(query) ==>
      var request := BuildRetrieveRequest(config, query, metadataFilters, numberOfResults, searchType).value;
      && (service(request).Err? ==> r == Err(service(request).error))
      && (service(request).Ok? ==> FormatsTo(service(request).value, r))
    ensures r.Ok? ==>
      var request := BuildRetrieveRequest(config, query, metadataFilters, numberOfResults, searchType).value;
      service(request).Ok? && service(request).value.Object?
  {
    var request := BuildRetrieveRequest(config, query, metadataFilters, numberOfResults, searchType);
    if request.Err? {
      return Err(request.error);
    }
    var response := service(request.value);
    if response.Err? {
      return Err(response.error);
    }
    r := FormatResults(response.value);
  }

  // ---------------------------------------------------------------------
  // summarize_chunks

  /** `", ".join(f"{k}={v}" for k, v in (metadata or {}).items())`: a falsy
      value reads as an empty dict, and a truthy value that is not a dict has
      no `items`. */
  function MetadataDescription(metadata: Value): (r: Result<string>)
    ensures !Truthy(metadata) ==> r == Ok("")
    ensures r.Ok? <==> !Truthy(metadata) || metadata.Object?
    ensures metadata.Object? && |metadata.fields| == 1 ==>
      r == Ok(metadata.fields[0].0 + "=" + PyStr(metadata.fields[0].1))
  {
    if !Truthy(metadata) then Ok("")
    else if metadata.Object? then
      var f := metadata.fields;
      Ok(Join(", ", seq(|f|, i requires 0 <= i < |f| => f[i].0 + "=" + PyStr(f[i].1))))
    else Err(AttributeError("'" + TypeName(metadata) + "' object has no attribute 'items'"))
  }

  /** The pairs are listed in the dictionary's order: one more pair adds one
      more `k=v` at the end. */
  lemma MetadataDescriptionAppend(f: Dict<Value>, k: string, v: Value)
    requires |f| > 0
    ensures MetadataDescription(Object(f + [(k, v)]))
         == Ok(MetadataDescription(Object(f)).value + ", " + k + "=" + PyStr(v))
  {
    var g := f + [(k, v)];
    var parts := seq(|f|, i requires 0 <= i < |f| => f[i].0 + "=" + PyStr(f[i].1));
    var parts' := seq(|g|, i requires 0 <= i < |g| => g[i].0 + "=" + PyStr(g[i].1));
    assert parts' == parts + [k + "=" + PyStr(v)];
    JoinAppend(", ", parts, k + "=" + PyStr(v));
    assert Join(", ", parts) + ", " + (k + "=" + PyStr(v)) == Join(", ", parts) + ", " + k + "=" + PyStr(v);
  }

  /** The section for the chunk numbered `index`:
      `[Chunk <index> | score=<score>] <metadata>` then the content on the
      next line; a missing score or content shows as `None`. */
  function ChunkSection(index: int, chunk: Value): (r: Result<string>)
    ensures !chunk.Object? ==> r.Err? && r.error.AttributeError?
    ensures chunk.Object? ==>
      var description := MetadataDescription(Get(chunk.fields, "metadata").GetOr(Null));
      && (r.Ok? <==> description.Ok?)
      && (description.Err? ==> r == Err(description.error))
      && (r.Ok? ==> r.value == "[Chunk " + IntToString(index) + " | score="
                             + PyStr(Get(chunk.fields, "score").GetOr(Null)) + "] " + description.value
                             + "\n" + PyStr(Get(chunk.fields, "content").GetOr(Null)))
    ensures r.Ok? ==> "[Chunk " + IntToString(index) + " | score=" <= r.value
  {
    var metadata :- DictGet(chunk, "metadata", Null);
    var description :- MetadataDescription(metadata);
    var score := Get(chunk.fields, "score").GetOr(Null);
    var content := Get(chunk.fields, "content").GetOr(Null);
    PrefixOfAppended("[Chunk " + IntToString(index) + " | score=", PyStr(score), "] ", description, "\n", PyStr(content));
    Ok("[Chunk " + IntToString(index) + " | score=" + PyStr(score) + "] " + description + "\n" + PyStr(content))
  }

  /** A chunk with no fields shows `None` for its score and its content. */
  lemma EmptyChunkSection(index: int)
    ensures ChunkSection(index, Object([])) == Ok("[Chunk " + IntToString(index) + " | score=None] \nNone")
  {
    NoneSection("[Chunk " + IntToString(index));
  }

  lemma NoneSection(a: string)
    ensures a + " | score=" + "None" + "] " + "" + "\n" + "None" == a + " | score=None] \nNone"
  {
    assert " | score=" + "None" + "] " + "" + "\n" + "None" == " | score=None] \nNone";
    assert a + " | score=" + "None" + "] " + "" + "\n" + "None" == a + (" | score=" + "None" + "] " + "" + "\n" + "None");
  }

  /** The sections of all chunks, numbered from 1, when every chunk has one. */
  ghost function Sections(chunks: seq<Value>): (s: seq<string>)
    requires forall i :: 0 <= i < |chunks| ==> ChunkSection(i + 1, chunks[i]).Ok?
    ensures |s| == |chunks|
    ensures forall i :: 0 <= i < |chunks| ==> ChunkSection(i + 1, chunks[i]) == Ok(s[i])
  {
    seq(|chunks|, i requires 0 <= i < |chunks| => ChunkSection(i + 1, chunks[i]).value)
  }

  /** The chunk at position `i` (numbered `i + 1`) is the first that has no
      section, for `error`. */
  predicate FirstBadChunk(chunks: seq<Value>, i: int, error: Error) {
    && 0 <= i < |chunks|
    && ChunkSection(i + 1, chunks[i]) == Err(error)
    && forall j :: 0 <= j < i ==> ChunkSection(j + 1, chunks[j]).Ok?
  }

  /** `summarize_chunks`: the chunk sections, numbered from 1, separated by a
      blank line. */
  method SummarizeChunks(chunks: seq<Value>) returns (r: Result<string>)
    ensures chunks == [] ==> r == Ok("")
    ensures r.Ok? ==>
      && (forall i :: 0 <= i < |chunks| ==> ChunkSection(i + 1, chunks[i]).Ok?)
      && r.value == Join("\n\n", Sections(chunks))
    ensures r.Err? ==> exists i :: FirstBadChunk(chunks, i, r.error)
  {
    var sections := MapIndexed(ChunkSection, chunks, 1);
    if sections.Err? {
      var i :| 0 <= i < |chunks| && ChunkSection(i + 1, chunks[i]) == Err(sections.error)
               && forall j :: 0 <= j < i ==> ChunkSection(j + 1, chunks[j]).Ok?;
      assert FirstBadChunk(chunks, i, sections.error);
      return Err(sections.error);
    }
    assert sections.value == Sections(chunks);
    return Ok(Join("\n\n", sections.value));
  }

  /** One more chunk adds its section at the end of the list. */
  lemma SectionsSnoc(chunks: seq<Value>, c: Value)
    requires forall i :: 0 <= i < |chunks| ==> ChunkSection(i + 1, chunks[i]).Ok?
    requires ChunkSection(|chunks| + 1, c).Ok?
    ensures var all := chunks + [c];
      && (forall i :: 0 <= i < |all| ==> ChunkSection(i + 1, all[i]).Ok?)
      && Sections(all) == Sections(chunks) + [ChunkSection(|chunks| + 1, c).value]
  {
    var all := chunks + [c];
    forall i | 0 <= i < |all|
      ensures ChunkSection(i + 1, all[i]).Ok?
    {
      if i < |chunks| {
        assert all[i] == chunks[i];
      }
    }
    var extended := Sections(chunks) + [ChunkSection(|chunks| + 1, c).value];
    forall j | 0 <= j < |all|
      ensures Sections(all)[j] == extended[j]
    {
      if j < |chunks| {
        assert all[j] == chunks[j];
      }
    }
    assert Sections(all) == extended;
  }

  /** Summarising one more chunk adds a blank line and its section. */
  lemma SummaryAppend(chunks: seq<Value>, c: Value)
    requires |chunks| > 0
    requires forall i :: 0 <= i < |chunks| ==> ChunkSection(i + 1, chunks[i]).Ok?
    requires ChunkSection(|chunks| + 1, c).Ok?
    ensures var all := chunks + [c];
      && (forall i :: 0 <= i < |all| ==> ChunkSection(i + 1, all[i]).Ok?)
      && Join("\n\n", Sections(all))
         == Join("\n\n", Sections(chunks)) + "\n\n" + ChunkSection(|chunks| + 1, c).value
  {
    SectionsSnoc(chunks, c);
    JoinAppend("\n\n", Sections(chunks), ChunkSection(|chunks| + 1, c).value);
  }
}

=== FILE: kb_config.dfy ===
/** Configuration of the knowledge-base tool: the configuration records and
    their defaults, the `equals` filter payload built from metadata pairs, and
    resolution of settings from the process environment and `settings.json`.

    The process environment is a map; `settings.json` arrives already parsed
    (or absent), and the merged settings are computed once and passed down,
    which is what the module-level cache achieves. */
module KbConfig {
  import opened Wrappers
  import opened Text
  import opened Dicts
  import opened Values

  const InstructionsDefault: string :=
    "You are a helpful assistant that answers using the knowledge base snippets when applicable."

  const ContextTemplateDefault: string :=
    "You must base your answer on the provided knowledge base context. If the context does not contain the answer, state that clearly.\n\nContext:\n{context}\n\nUser question: {query}"

  /** How CLI metadata arguments are parsed. */
  datatype MetadataConfig = MetadataConfig(keyValueSeparator: string, stripWhitespace: bool, allowEmptyValues: bool)

  const DefaultMetadataConfig := MetadataConfig("=", true, true)

  datatype RetrievalConfig = RetrievalConfig(topK: int, searchType: string, healthCheckQuery: string)

  const DefaultRetrievalConfig := RetrievalConfig(5, "SEMANTIC", "health check")

  datatype GenerationConfig = GenerationConfig(
    instructions: string,
    temperature: Float,
    maxTokens: int,
    anthropicVersion: string,
    contextTemplate: string)

  const DefaultGenerationConfig :=
    GenerationConfig(InstructionsDefault, Float("0.1"), 800, "bedrock-2023-05-31", ContextTemplateDefault)

  datatype BedrockConfig = BedrockConfig(
    region: string,
    knowledgeBaseId: string,
    modelId: string,
    metadata: MetadataConfig,
    retrieval: RetrievalConfig,
    generation: GenerationConfig)

  const DefaultModelId: string := "anthropic.claude-3-sonnet-20240229-v1:0"

  // ---------------------------------------------------------------------
  // The `equals` filter payload

  /** One `{"key": k, "value": {"stringValue": v}}` entry. */
  function EqualsEntry(key: string, value: string): Value {
    Object([("key", Str(key)), ("value", Object([("stringValue", Str(value))]))])
  }

  /** `metadata_dict_from_key_values`: no filter for no pairs, otherwise one
      `equals` list with an entry per pair, in the dictionary's order. */
  function MetadataDictFromKeyValues(kv: Dict<string>): (r: Option<Value>)
    ensures r.None? <==> |kv| == 0
    ensures r.Some? ==> r.value.Object? && Keys(r.value.fields) == ["equals"]
    ensures r.Some? ==> r.value.fields[0].1.List? && |r.value.fields[0].1.items| == |kv|
    ensures r.Some? ==> forall i :: 0 <= i < |kv| ==>
      r.value.fields[0].1.items[i] == EqualsEntry(kv[i].0, kv[i].1)
  {
    if |kv| == 0 then None
    else Some(Object([("equals", List(seq(|kv|, i requires 0 <= i < |kv| => EqualsEntry(kv[i].0, kv[i].1))))]))
  }

  /** Reads one entry back; anything not of the entry shape is rejected. */
  function DecodeEntry(v: Value): Option<(string, string)> {
    if && v.Object? && |v.fields| == 2
       && v.fields[0].0 == "key" && v.fields[0].1.Str?
       && v.fields[1].0 == "value" && v.fields[1].1.Object?
       && |v.fields[1].1.fields| == 1
       && v.fields[1].1.fields[0].0 == "stringValue" && v.fields[1].1.fields[0].1.Str?
    then Some((v.fields[0].1.s, v.fields[1].1.fields[0].1.s))
    else None
  }

  function DecodeEntries(items: seq<Value>): Option<Dict<string>> {
    if |items| == 0 then Some([])
    else
      match (DecodeEntry(items[0]), DecodeEntries(items[1..]))
      case (Some(e), Some(rest)) => Some([e] + rest)
      case _ => None
  }

  /** The inverse of `MetadataDictFromKeyValues`: the pairs a payload carries. */
  function KeyValuesFromFilter(v: Value): Option<Dict<string>> {
    if v.Object? && |v.fields| == 1 && v.fields[0].0 == "equals" && v.fields[0].1.List?
    then DecodeEntries(v.fields[0].1.items)
    else None
  }

  lemma {:induction false} DecodeEntriesOf(kv: Dict<string>)
    ensures DecodeEntries(seq(|kv|, i requires 0 <= i < |kv| => EqualsEntry(kv[i].0, kv[i].1))) == Some(kv)
  {
    var items := seq(|kv|, i requires 0 <= i < |kv| => EqualsEntry(kv[i].0, kv[i].1));
    if |kv| > 0 {
      var tail := seq(|kv| - 1, i requires 0 <= i < |kv| - 1 => EqualsEntry(kv[1..][i].0, kv[1..][i].1));
      assert items[1..] == tail;
      DecodeEntriesOf(kv[1..]);
      assert DecodeEntry(items[0]) == Some(kv[0]);
      assert [kv[0]] + kv[1..] == kv;
    }
  }

  /** Every pair, key and value unchanged and in order, can be read back
      from the payload. */
  lemma MetadataFilterRoundTrip(kv: Dict<string>)
    requires |kv| > 0
    ensures MetadataDictFromKeyValues(kv).Some?
    ensures KeyValuesFromFilter(MetadataDictFromKeyValues(kv).value) == Some(kv)
  {
    DecodeEntriesOf(kv);
  }

  // ---------------------------------------------------------------------
  // settings.json

  /** `{k: str(v) for k, v in section.items()}` when the section is a dict,
      and nothing otherwise. */
  function SectionPairs(top: Dict<Value>, name: string): (r: Dict<string>)
    ensures !IsObjectSection(top, name) ==> r == []
    ensures IsObjectSection(top, name) ==> |r| == |Get(top, name).value.fields|
  {
    var section: Option<Value> := Get(top, name);
    if section.Some? && section.value.Object? then
      var f := section.value.fields;
      seq(|f|, i requires 0 <= i < |f| => (f[i].0, PyStr(f[i].1)))
    else []
  }

  predicate IsObjectSection(top: Dict<Value>, name: string) {
    var section: Option<Value> := Get(top, name);
    section.Some? && section.value.Object?
  }

  const PlatformNeutralSection: string := "terminal.integrated.env"

  /** What reading and parsing `settings.json` gave. */
  datatype SettingsFile =
    | Absent                    // no path, or no file at it
    | Ignored                   // an `OSError` while reading, or text that is not JSON
    | Undecodable(error: Error) // bytes that are not UTF-8: the `UnicodeDecodeError` is not caught
    | Parsed(data: Value)

  /** `_load_settings_env` given what reading the file gave and the
      platform's section name. A missing file, a read failure and invalid
      JSON give no settings; undecodable bytes raise, and so does a top-level
      value that is not an object, which has no `get`. Either error is the
      `settings` error that every later lookup of a name the process
      environment lacks surfaces. */
  function LoadSettingsEnv(file: SettingsFile, platformKey: string): (r: Result<Dict<string>>)
    ensures file.Absent? || file.Ignored? ==> r == Ok([])
    ensures file.Undecodable? ==> r == Err(file.error)
    ensures file.Parsed? ==> (r.Ok? <==> file.data.Object?)
    ensures file.Parsed? && !file.data.Object? ==> r.error.AttributeError?
  {
    match file
    case Absent => Ok([])
    case Ignored => Ok([])
    case Undecodable(e) => Err(e)
    case Parsed(Object(top)) =>
      var env := PutAll([], SectionPairs(top, "bedrock.env"));
      var env := PutAll(env, SectionPairs(top, "awsBedrock.env"));
      var env := PutAll(env, SectionPairs(top, platformKey));
      Ok(PutAll(env, SectionPairs(top, PlatformNeutralSection)))
    case Parsed(v) => Err(AttributeError("'" + TypeName(v) + "' object has no attribute 'get'"))
  }

  function FirstSome<T>(a: Option<T>, b: Option<T>): Option<T> {
    if a.Some? then a else b
  }

  /** A name takes its value from the last section that has it, in the order
      bedrock.env, awsBedrock.env, the platform section, terminal.integrated.env;
      sections that are not objects contribute nothing. */
  lemma SettingsPrecedence(top: Dict<Value>, platformKey: string, k: string)
    ensures LoadSettingsEnv(Parsed(Object(top)), platformKey).Ok?
    ensures Get(LoadSettingsEnv(Parsed(Object(top)), platformKey).value, k) ==
      FirstSome(LastFor(SectionPairs(top, PlatformNeutralSection), k),
      FirstSome(LastFor(SectionPairs(top, platformKey), k),
      FirstSome(LastFor(SectionPairs(top, "awsBedrock.env"), k),
                LastFor(SectionPairs(top, "bedrock.env"), k))))
  {
    var e1 := PutAll([], SectionPairs(top, "bedrock.env"));
    var e2 := PutAll(e1, SectionPairs(top, "awsBedrock.env"));
    var e3 := PutAll(e2, SectionPairs(top, platformKey));
    PutAllGet([], SectionPairs(top, "bedrock.env"), k);
    PutAllGet(e1, SectionPairs(top, "awsBedrock.env"), k);
    PutAllGet(e2, SectionPairs(top, platformKey), k);
    PutAllGet(e3, SectionPairs(top, PlatformNeutralSection), k);
  }

  // ---------------------------------------------------------------------
  // Environment lookup

  type Environ = map<string, string>

  /** Where a name's value comes from once the settings are known: the
      process environment whenever it has the name, even with an empty value. */
  function Lookup(env: Environ, settings: Dict<string>, name: string): Option<string> {
    if name in env then Some(env[name]) else Get(settings, name)
  }

  /** `_get_env_value`: the settings are consulted, and their loading error
      surfaces, only for a name the process environment lacks. */
  function GetEnvValue(env: Environ, settings: Result<Dict<string>>, name: string): (r: Result<Option<string>>)
    ensures name in env ==> r == Ok(Some(env[name]))
    ensures name !in env && settings.Ok? ==> r == Ok(Get(settings.value, name))
    ensures name !in env && settings.Err? ==> r == Err(settings.error)
  {
    if name in env then Ok(Some(env[name]))
    else
      var s :- settings;
      Ok(Get(s, name))
  }

  const TrueTokens: set<string> := {"1", "true", "yes", "y", "on"}
  const FalseTokens: set<string> := {"0", "false", "no", "n", "off"}

  /** How `_env_flag` reads a present value. */
  function FlagOf(raw: string, default: bool): (r: bool)
    ensures Lower(Strip(raw)) in TrueTokens ==> r
    ensures Lower(Strip(raw)) !in TrueTokens && Lower(Strip(raw)) in FalseTokens ==> !r
    ensures Lower(Strip(raw)) !in TrueTokens && Lower(Strip(raw)) !in FalseTokens ==> r == default
  {
    var lowered := Lower(Strip(raw));
    if lowered in TrueTokens then true
    else if lowered in FalseTokens then false
    else default
  }

  /** `_env_flag`. */
  function EnvFlag(env: Environ, settings: Result<Dict<string>>, name: string, default: bool): (r: Result<bool>)
    ensures name in env ==> r == Ok(FlagOf(env[name], default))
    ensures settings.Ok? ==> r.Ok?
    ensures settings.Ok? && Lookup(env, settings.value, name).None? ==> r == Ok(default)
    ensures settings.Ok? && Lookup(env, settings.value, name).Some? ==>
      r == Ok(FlagOf(Lookup(env, settings.value, name).value, default))
  {
    var raw :- GetEnvValue(env, settings, name);
    if raw.None? then Ok(default) else Ok(FlagOf(raw.value, default))
  }

  lemma TokensDisjoint()
    ensures TrueTokens !! FalseTokens
  {
  }

  /** Whitespace around a flag's token does not change how it reads. */
  lemma FlagIgnoresPadding(a: string, t: string, b: string, default: bool)
    requires AllSpace(a) && AllSpace(b)
    requires t != [] && !IsSpace(t[0]) && !IsSpace(t[|t| - 1])
    ensures FlagOf(a + t + b, default) == FlagOf(t, default)
  {
    StripPadded(a, t, b);
  }

  /** Upper-case letters in a flag's token do not change how it reads. */
  lemma FlagIgnoresCase(t: string, default: bool)
    ensures FlagOf(t, default) == FlagOf(Lower(t), default)
  {
    var s := Strip(t);
    StripLower(t);
    LowerTwice(s);
  }

  // ---------------------------------------------------------------------
  // BedrockConfig.from_env

  const RegionRequired: string := "Environment variable AWS_REGION or AWS_DEFAULT_REGION is required"
  const KnowledgeBaseRequired: string := "Environment variable BEDROCK_KB_ID is required"

  predicate Falsy(o: Option<string>) {
    o.None? || o.value == ""
  }

  /** `int(raw or default)`. */
  function IntOr(raw: Option<string>, default: int): (r: Result<int>)
    ensures Falsy(raw) ==> r == Ok(default)
    ensures !Falsy(raw) ==> r == ParseInt(raw.value)
  {
    if Falsy(raw) then Ok(default) else ParseInt(raw.value)
  }

  /** `int(_get_env_value(name) or default)`. */
  function IntSetting(env: Environ, settings: Result<Dict<string>>, name: string, default: int): (r: Result<int>)
    ensures settings.Ok? ==> r == IntOr(Lookup(env, settings.value, name), default)
  {
    var raw :- GetEnvValue(env, settings, name);
    IntOr(raw, default)
  }

  /** `_get_env_value(name) or default` for a string setting. */
  function StringSetting(env: Environ, settings: Result<Dict<string>>, name: string, default: string): (r: Result<string>)
    ensures settings.Ok? ==> r == Ok(OrString(Lookup(env, settings.value, name), default))
  {
    var raw :- GetEnvValue(env, settings, name);
    Ok(OrString(raw, default))
  }

  /** `float(_get_env_value(name) or default)`, `parseFloat` standing for `float()`. */
  function FloatSetting(env: Environ, settings: Result<Dict<string>>, name: string, default: Float,
                        parseFloat: string -> Result<Float>): (r: Result<Float>)
    ensures settings.Ok? && Falsy(Lookup(env, settings.value, name)) ==> r == Ok(default)
    ensures settings.Ok? && !Falsy(Lookup(env, settings.value, name))
            ==> r == parseFloat(Lookup(env, settings.value, name).value)
  {
    var raw :- GetEnvValue(env, settings, name);
    if Falsy(raw) then Ok(default) else parseFloat(raw.value)
  }

  /** `_get_env_value("AWS_REGION") or _get_env_value("AWS_DEFAULT_REGION")`. */
  function RegionOf(env: Environ, settings: Dict<string>): Option<string> {
    var first := Lookup(env, settings, "AWS_REGION");
    if !Falsy(first) then first else Lookup(env, settings, "AWS_DEFAULT_REGION")
  }

  /** The two values `from_env` cannot do without, region first. */
  function RequiredFromEnv(env: Environ, settings: Result<Dict<string>>): (r: Result<(string, string)>)
    ensures settings.Ok? && Falsy(RegionOf(env, settings.value))
            ==> r == Err(RuntimeError(RegionRequired))
    ensures settings.Ok? && !Falsy(RegionOf(env, settings.value))
              && Falsy(Lookup(env, settings.value, "BEDROCK_KB_ID"))
            ==> r == Err(RuntimeError(KnowledgeBaseRequired))
    ensures settings.Ok? && r.Ok? ==> Some(r.value.0) == RegionOf(env, settings.value)
    ensures settings.Ok? && r.Ok? ==> Some(r.value.1) == Lookup(env, settings.value, "BEDROCK_KB_ID")
    ensures r.Ok? ==> r.value.0 != "" && r.value.1 != ""
    ensures settings.Err? && "AWS_REGION" !in env ==> r == Err(settings.error)
  {
    var first :- GetEnvValue(env, settings, "AWS_REGION");
    var region :- if !Falsy(first) then Ok(first) else GetEnvValue(env, settings, "AWS_DEFAULT_REGION");
    if Falsy(region) then Err(RuntimeError(RegionRequired))
    else
      var kb :- GetEnvValue(env, settings, "BEDROCK_KB_ID");
      if Falsy(kb) then Err(RuntimeError(KnowledgeBaseRequired))
      else Ok((region.value, kb.value))
  }

  /** The `RetrievalConfig` block of `from_env`: an empty or missing value
      means the default, and a malformed `BEDROCK_KB_TOP_K` is an error. */
  function RetrievalFromEnv(env: Environ, settings: Result<Dict<string>>): (r: Result<RetrievalConfig>)
    ensures settings.Ok? ==> (r.Ok? <==> IntOr(Lookup(env, settings.value, "BEDROCK_KB_TOP_K"), 5).Ok?)
    ensures settings.Ok? && Falsy(Lookup(env, settings.value, "BEDROCK_KB_TOP_K")) ==> r.Ok? && r.value.topK == 5
    ensures settings.Ok? && r.Ok? ==>
      && IntOr(Lookup(env, settings.value, "BEDROCK_KB_TOP_K"), 5) == Ok(r.value.topK)
      && r.value.searchType == OrString(Lookup(env, settings.value, "BEDROCK_SEARCH_TYPE"), "SEMANTIC")
      && r.value.healthCheckQuery == OrString(Lookup(env, settings.value, "BEDROCK_HEALTHCHECK_QUERY"), "health check")
  {
    var topK :- IntSetting(env, settings, "BEDROCK_KB_TOP_K", DefaultRetrievalConfig.topK);
    var searchType :- StringSetting(env, settings, "BEDROCK_SEARCH_TYPE", DefaultRetrievalConfig.searchType);
    var health :- StringSetting(env, settings, "BEDROCK_HEALTHCHECK_QUERY", DefaultRetrievalConfig.healthCheckQuery);
    Ok(RetrievalConfig(topK, searchType, health))
  }

  /** The `GenerationConfig` block of `from_env`. `parseFloat` stands for
      Python's `float()`; the version and the context template are fixed. */
  function GenerationFromEnv(env: Environ, settings: Result<Dict<string>>, parseFloat: string -> Result<Float>): (r: Result<GenerationConfig>)
    ensures settings.Ok? && r.Ok? && Falsy(Lookup(env, settings.value, "BEDROCK_TEMPERATURE"))
            ==> r.value.temperature == Float("0.1")
    ensures settings.Ok? && r.Ok? ==>
      r.value.instructions == OrString(Lookup(env, settings.value, "BEDROCK_INSTRUCTIONS"), InstructionsDefault)
    ensures settings.Ok? && r.Ok? ==>
      IntOr(Lookup(env, settings.value, "BEDROCK_MAX_TOKENS"), 800) == Ok(r.value.maxTokens)
    ensures settings.Ok? && Falsy(Lookup(env, settings.value, "BEDROCK_TEMPERATURE"))
              && Falsy(Lookup(env, settings.value, "BEDROCK_MAX_TOKENS"))
            ==> r.Ok?
    ensures r.Ok? ==> r.value.anthropicVersion == "bedrock-2023-05-31" && r.value.contextTemplate == ContextTemplateDefault
  {
    var instructions :- StringSetting(env, settings, "BEDROCK_INSTRUCTIONS", InstructionsDefault);
    var temperature :- FloatSetting(env, settings, "BEDROCK_TEMPERATURE", DefaultGenerationConfig.temperature, parseFloat);
    var maxTokens :- IntSetting(env, settings, "BEDROCK_MAX_TOKENS", DefaultGenerationConfig.maxTokens);
    Ok(GenerationConfig(
      instructions,
      temperature,
      maxTokens,
      DefaultGenerationConfig.anthropicVersion,
      DefaultGenerationConfig.contextTemplate))
  }

  /** The `MetadataConfig` block of `from_env`. */
  function MetadataFromEnv(env: Environ, settings: Result<Dict<string>>): (r: Result<MetadataConfig>)
    ensures settings.Ok? ==> r.Ok?
    ensures settings.Ok? ==> r.value.keyValueSeparator == OrString(Lookup(env, settings.value, "BEDROCK_METADATA_SEPARATOR"), "=")
    ensures settings.Ok? && Lookup(env, settings.value, "BEDROCK_METADATA_STRIP_WHITESPACE").None? ==> r.value.stripWhitespace
    ensures settings.Ok? && Lookup(env, settings.value, "BEDROCK_METADATA_ALLOW_EMPTY_VALUES").None? ==> r.value.allowEmptyValues
    ensures settings.Ok? && Lookup(env, settings.value, "BEDROCK_METADATA_STRIP_WHITESPACE").Some? ==>
      r.value.stripWhitespace == FlagOf(Lookup(env, settings.value, "BEDROCK_METADATA_STRIP_WHITESPACE").value, true)
    ensures settings.Ok? && Lookup(env, settings.value, "BEDROCK_METADATA_ALLOW_EMPTY_VALUES").Some? ==>
      r.value.allowEmptyValues == FlagOf(Lookup(env, settings.value, "BEDROCK_METADATA_ALLOW_EMPTY_VALUES").value, true)
  {
    var separator :- StringSetting(env, settings, "BEDROCK_METADATA_SEPARATOR", DefaultMetadataConfig.keyValueSeparator);
    var strip :- EnvFlag(env, settings, "BEDROCK_METADATA_STRIP_WHITESPACE", DefaultMetadataConfig.stripWhitespace);
    var allowEmpty :- EnvFlag(env, settings, "BEDROCK_METADATA_ALLOW_EMPTY_VALUES", DefaultMetadataConfig.allowEmptyValues);
    Ok(MetadataConfig(separator, strip, allowEmpty))
  }

  /** `BedrockConfig.from_env`: the required values are checked first, then the
      retrieval, generation and metadata blocks are read in that order. */
  function FromEnv(env: Environ, settings: Result<Dict<string>>, parseFloat: string -> Result<Float>): (r: Result<BedrockConfig>)
    ensures RequiredFromEnv(env, settings).Err? ==> r == Err(RequiredFromEnv(env, settings).error)
    ensures r.Ok? ==> r.value.region != "" && r.value.knowledgeBaseId != ""
    ensures settings.Ok? && r.Ok? ==>
      && Some(r.value.region) == RegionOf(env, settings.value)
      && Some(r.value.knowledgeBaseId) == Lookup(env, settings.value, "BEDROCK_KB_ID")
      && r.value.modelId == OrString(Lookup(env, settings.value, "BEDROCK_MODEL_ID"), DefaultModelId)
    ensures settings.Ok? && RequiredFromEnv(env, settings).Ok?
              && Falsy(Lookup(env, settings.value, "BEDROCK_KB_TOP_K"))
              && Falsy(Lookup(env, settings.value, "BEDROCK_TEMPERATURE"))
              && Falsy(Lookup(env, settings.value, "BEDROCK_MAX_TOKENS"))
            ==> r.Ok? && r.value.retrieval.topK == 5 && r.value.generation.maxTokens == 800
  {
    var required :- RequiredFromEnv(env, settings);
    var model :- StringSetting(env, settings, "BEDROCK_MODEL_ID", DefaultModelId);
    var retrieval :- RetrievalFromEnv(env, settings);
    var generation :- GenerationFromEnv(env, settings, parseFloat);
    var metadata :- MetadataFromEnv(env, settings);
    Ok(BedrockConfig(required.0, required.1, model, metadata, retrieval, generation))
  }

  /** An integer setting written as `str(n)` is read back as `n`. */
  lemma FromEnvReadsTopK(env: Environ, settings: Dict<string>, parseFloat: string -> Result<Float>, n: int)
    requires Lookup(env, settings, "BEDROCK_KB_TOP_K") == Some(IntToString(n))
    requires FromEnv(env, Ok(settings), parseFloat).Ok?
    ensures FromEnv(env, Ok(settings), parseFloat).value.retrieval.topK == n
  {
    IntToStringParses(n);
  }

  /** A non-empty integer setting that `int()` rejects is a `ValueError`
      naming it, reported once the required values are present. */
  lemma FromEnvRejectsBadTopK(env: Environ, settings: Dict<string>, parseFloat: string -> Result<Float>, v: string)
    requires RequiredFromEnv(env, Ok(settings)).Ok?
    requires Lookup(env, settings, "BEDROCK_KB_TOP_K") == Some(v) && v != "" && ParseInt(v).Err?
    ensures FromEnv(env, Ok(settings), parseFloat) == Err(IntError(v))
  {
    assert RetrievalFromEnv(env, Ok(settings)) == Err(IntError(v));
  }

  /** `five` is such a setting. */
  lemma WordIsNotAnInt()
    ensures ParseInt("five") == Err(IntError("five"))
  {
    var five := "five";
    assert five[0] == 'f' && five[|five| - 1] == 'e';
    assert !IsSpace(five[0]) && !IsSpace(five[|five| - 1]);
    assert Strip(five) == five;
    assert !IsDigit(five[0]);
  }
}

=== FILE: lambda_handler.dfy ===
/** The serverless entry point: read the configuration from the environment,
    take the prompt from the event, run retrieve-and-generate, and map the
    outcome to an HTTP status and body. */
module LambdaHandler {
  import opened Wrappers
  import opened Dicts
  import opened Values
  import opened KbConfig

  /** The handler's reply. `body` is the dictionary the handler passes to
      `json.dumps`; the JSON text itself is not modelled. */
  datatype Response = Response(statusCode: int, body: Value)

  const PromptRequired := "prompt_question is required"

  /** The reply for a missing or empty prompt. */
  const BadRequest := Response(400, Object([("error", Str(PromptRequired))]))

  /** The reply for any exception: its `str`. */
  function ServerError(e: Error): (r: Response)
    ensures r.statusCode == 500
    ensures r.body == Object([("error", Str(e.Message()))])
  {
    Response(500, Object([("error", Str(e.Message()))]))
  }

  /** `os.environ[name]`: a missing name raises `KeyError`. */
  function EnvVar(env: Environ, name: string): (r: Result<string>)
    ensures name in env ==> r == Ok(env[name])
    ensures name !in env ==> r == Err(KeyError(name))
  {
    if name in env then Ok(env[name]) else Err(KeyError(name))
  }

  /** The prompt the event carries. An event holding `body` (a key of a
      dict, an item of a list, a substring of a string) is subscripted by
      it, which only a dict allows; a string body is parsed as JSON and the
      prompt read from the result, which must be a dictionary. Without
      `body`, the prompt is read from the event itself, which must be a
      dictionary. An absent prompt reads as `None`. */
  function PromptOf(event: Value, parseJson: string -> Result<Value>): (r: Result<Value>)
    ensures !event.Object? ==> r.Err?
    ensures event.Object? && "body" !in Keys(event.fields) ==>
      r == Ok(Get(event.fields, "prompt_question").GetOr(Null))
    ensures event.Object? && Get(event.fields, "body").Some? && Get(event.fields, "body").value.Str? ==>
      var parsed := parseJson(Get(event.fields, "body").value.s);
      r == if parsed.Ok? then DictGet(parsed.value, "prompt_question", Null) else Err(parsed.error)
    ensures event.Object? && Get(event.fields, "body").Some? && !Get(event.fields, "body").value.Str? ==>
      r == DictGet(Get(event.fields, "body").value, "prompt_question", Null)
  {
    var hasBody :- Membership(event, "body");
    if hasBody then
      var raw :- Subscript(event, "body");
      var body :- if raw.Str? then parseJson(raw.s) else Ok(raw);
      DictGet(body, "prompt_question", Null)
    else
      DictGet(event, "prompt_question", Null)
  }

  /** The draft text of a retrieve-and-generate response: `response["output"]["text"]`.
      Subscripting anything but a dictionary raises `TypeError`. */
  function DraftText(response: Value): (r: Result<Value>)
    ensures r.Ok? ==>
      && response.Object? && Get(response.fields, "output").Some?
      && Get(response.fields, "output").value.Object?
      && Get(Get(response.fields, "output").value.fields, "text") == Some(r.value)
    ensures !response.Object? ==> r.Err? && r.error.TypeError?
    ensures response.Object? && Get(response.fields, "output").None? ==> r == Err(KeyError("output"))
    ensures response.Object? && Get(response.fields, "output").Some? ==>
      var output := Get(response.fields, "output").value;
      && (!output.Object? ==> r.Err? && r.error.TypeError?)
      && (output.Object? && Get(output.fields, "text").Some? ==> r == Ok(Get(output.fields, "text").value))
      && (output.Object? && Get(output.fields, "text").None? ==> r == Err(KeyError("text")))
  {
    var output :- Subscript(response, "output");
    Subscript(output, "text")
  }

  /** The handler's work up to the point where an exception is turned into
      a 500 reply. */
  function Handle(env: Environ, event: Value, parseJson: string -> Result<Value>,
                  retAndGen: (Value, string, string) -> Result<Value>): Result<Response>
  {
    var knowledgeBaseId :- EnvVar(env, "KNOWLEDGE_BASE_ID");
    var modelArn :- EnvVar(env, "MODEL_ARN");
    var prompt :- PromptOf(event, parseJson);
    if !Truthy(prompt) then Ok(BadRequest)
    else
      var response :- retAndGen(prompt, knowledgeBaseId, modelArn);
      var text :- DraftText(response);
      Ok(Response(200, Object([("draft_text", text)])))
  }

  /** `lambda_handler`. `parseJson` stands for `json.loads` and `retAndGen`
      for the retrieve-and-generate call, given the prompt, knowledge base id
      and model ARN. Both environment variables are read before the event,
      a falsy prompt is rejected before retrieval, and every exception
      becomes a 500 reply carrying its message. */
  function LambdaHandler(env: Environ, event: Value, parseJson: string -> Result<Value>,
                         retAndGen: (Value, string, string) -> Result<Value>): (r: Response)
    ensures r.statusCode == 200 || r.statusCode == 400 || r.statusCode == 500
    ensures "KNOWLEDGE_BASE_ID" !in env ==> r == ServerError(KeyError("KNOWLEDGE_BASE_ID"))
    ensures "KNOWLEDGE_BASE_ID" in env && "MODEL_ARN" !in env ==> r == ServerError(KeyError("MODEL_ARN"))
    ensures r.statusCode == 400 <==>
      && "KNOWLEDGE_BASE_ID" in env && "MODEL_ARN" in env
      && PromptOf(event, parseJson).Ok? && !Truthy(PromptOf(event, parseJson).value)
    ensures r.statusCode == 400 ==> r == BadRequest
    ensures "KNOWLEDGE_BASE_ID" in env && "MODEL_ARN" in env && !event.Object? ==>
      r == ServerError(PromptOf(event, parseJson).error)
    ensures r.statusCode == 200 ==>
      && "KNOWLEDGE_BASE_ID" in env && "MODEL_ARN" in env
      && PromptOf(event, parseJson).Ok?
      && var prompt := PromptOf(event, parseJson).value;
      && Truthy(prompt)
      && var response := retAndGen(prompt, env["KNOWLEDGE_BASE_ID"], env["MODEL_ARN"]);
      && response.Ok? && DraftText(response.value).Ok?
      && r.body == Object([("draft_text", DraftText(response.value).value)])
    ensures r.statusCode == 500 ==>
      && Handle(env, event, parseJson, retAndGen).Err?
      && r == ServerError(Handle(env, event, parseJson, retAndGen).error)
  {
    match Handle(env, event, parseJson, retAndGen)
    case Ok(response) => response
    case Err(e) => ServerError(e)
  }

  /** A rejected prompt never reaches retrieval: the reply does not depend on
      the retrieve-and-generate call. */
  lemma BadRequestSkipsRetrieval(env: Environ, event: Value, parseJson: string -> Result<Value>,
                                 retAndGen: (Value, string, string) -> Result<Value>,
                                 other: (Value, string, string) -> Result<Value>)
    requires LambdaHandler(env, event, parseJson, retAndGen).statusCode == 400
    ensures LambdaHandler(env, event, parseJson, other) == BadRequest
  {
  }

  /** An event without a prompt is rejected once the configuration is present. */
  lemma EmptyEventRejected(env: Environ, parseJson: string -> Result<Value>,
                           retAndGen: (Value, string, string) -> Result<Value>)
    requires "KNOWLEDGE_BASE_ID" in env && "MODEL_ARN" in env
    ensures LambdaHandler(env, Object([]), parseJson, retAndGen) == BadRequest
  {
  }

  /** The gateway form, a JSON body holding the prompt, is handled exactly
      like the direct form that carries the prompt at the top level. */
  lemma GatewayMatchesDirect(env: Environ, body: string, prompt: Value,
                             parseJson: string -> Result<Value>,
                             retAndGen: (Value, string, string) -> Result<Value>)
    requires parseJson(body) == Ok(Object([("prompt_question", prompt)]))
    ensures LambdaHandler(env, Object([("body", Str(body))]), parseJson, retAndGen)
         == LambdaHandler(env, Object([("prompt_question", prompt)]), parseJson, retAndGen)
  {
    assert PromptOf(Object([("body", Str(body))]), parseJson) == Ok(prompt);
    assert PromptOf(Object([("prompt_question", prompt)]), parseJson) == Ok(prompt);
  }

  /** A successful call whose response lacks `output` ends in a 500 reply
      naming the missing key. */
  lemma MissingOutputIsServerError(env: Environ, event: Value, parseJson: string -> Result<Value>,
                                   retAndGen: (Value, string, string) -> Result<Value>)
    requires "KNOWLEDGE_BASE_ID" in env && "MODEL_ARN" in env
    requires PromptOf(event, parseJson).Ok? && Truthy(PromptOf(event, parseJson).value)
    requires retAndGen(PromptOf(event, parseJson).value, env["KNOWLEDGE_BASE_ID"], env["MODEL_ARN"]) == Ok(Object([]))
    ensures LambdaHandler(env, event, parseJson, retAndGen) == Response(500, Object([("error", Str("'output'"))]))
  {
    assert DraftText(Object([])) == Err(KeyError("output"));
    assert KeyError("output").Message() == "'output'";
  }
}

=== FILE: metadata.dfy ===
/** The command-line metadata flags: `key=value` strings turned into the
    dictionary a knowledge-base filter is built from. */
module Metadata {
  import opened Wrappers
  import opened Text
  import opened Dicts
  import opened KbConfig

  function MissingSeparatorError(pair: string, sep: string): Error {
    ValueError("Metadata filter '" + pair + "' must use the form key" + sep + "value")
  }

  const EmptySeparatorError := ValueError("empty separator")

  const EmptyKeyError := ValueError("Metadata filter key cannot be empty")

  function EmptyValueError(key: string): Error {
    ValueError("Metadata filter '" + key + "' cannot have an empty value")
  }

  /** A key or value after the optional whitespace trimming. */
  function Clean(config: MetadataConfig, s: string): string {
    if config.stripWhitespace then Strip(s) else s
  }

  /** One iteration of the parsing loop: the `(key, value)` it stores, or the
      error it raises. Only the first separator splits, and the checks for
      emptiness look at the trimmed parts. */
  function ParsePair(pair: string, config: MetadataConfig): (r: Result<(string, string)>)
    ensures !Contains(pair, config.keyValueSeparator) ==>
      r == Err(MissingSeparatorError(pair, config.keyValueSeparator))
    ensures config.keyValueSeparator == "" ==> r == Err(EmptySeparatorError)
    ensures r.Ok? ==>
      var split := SplitOnce(pair, config.keyValueSeparator);
      && split.Some?
      && r.value == (Clean(config, split.value.0), Clean(config, split.value.1))
    ensures r.Ok? ==> r.value.0 != "" && (!config.allowEmptyValues ==> r.value.1 != "")
    ensures r.Err? ==> r.error.ValueError?
    ensures Contains(pair, config.keyValueSeparator) && config.keyValueSeparator != "" ==>
      var split := SplitOnce(pair, config.keyValueSeparator).value;
      var key := Clean(config, split.0);
      var value := Clean(config, split.1);
      && (key == "" ==> r == Err(EmptyKeyError))
      && (key != "" && !config.allowEmptyValues && value == "" ==> r == Err(EmptyValueError(key)))
      && (key != "" && (config.allowEmptyValues || value != "") ==> r == Ok((key, value)))
  {
    var sep := config.keyValueSeparator;
    assert sep == "" ==> OccursAt(pair, sep, 0);
    if !Contains(pair, sep) then Err(MissingSeparatorError(pair, sep))
    else if sep == "" then Err(EmptySeparatorError)
    else
      var split := SplitOnce(pair, sep).value;
      var key := Clean(config, split.0);
      var value := Clean(config, split.1);
      if key == "" then Err(EmptyKeyError)
      else if !config.allowEmptyValues && value == "" then Err(EmptyValueError(key))
      else Ok((key, value))
  }

  /** The pairs the loop stores, one per argument, when every argument parses. */
  ghost function ParsedPairs(args: seq<string>, config: MetadataConfig): (ps: seq<(string, string)>)
    requires forall i :: 0 <= i < |args| ==> ParsePair(args[i], config).Ok?
    ensures |ps| == |args|
    ensures forall i :: 0 <= i < |args| ==> ParsePair(args[i], config) == Ok(ps[i])
  {
    seq(|args|, i requires 0 <= i < |args| => ParsePair(args[i], config).value)
  }

  /** Argument `i` is the first one that does not parse. */
  predicate FirstFailure(args: seq<string>, config: MetadataConfig, i: int) {
    && 0 <= i < |args|
    && ParsePair(args[i], config).Err?
    && forall j :: 0 <= j < i ==> ParsePair(args[j], config).Ok?
  }

  /** `parse_metadata_args`: the first argument that fails decides the error;
      otherwise every argument is stored in turn, so a later pair for the same
      key overwrites an earlier one. */
  method ParseMetadataArgs(args: seq<string>, metadataConfig: Option<MetadataConfig>)
    returns (r: Result<Dict<string>>)
    ensures var config := metadataConfig.GetOr(DefaultMetadataConfig);
      r.Ok? <==> forall i :: 0 <= i < |args| ==> ParsePair(args[i], config).Ok?
    ensures var config := metadataConfig.GetOr(DefaultMetadataConfig);
      r.Err? ==> exists i :: FirstFailure(args, config, i) && ParsePair(args[i], config) == Err(r.error)
    ensures var config := metadataConfig.GetOr(DefaultMetadataConfig);
      r.Ok? ==> r.value == PutAll([], ParsedPairs(args, config))
    ensures r.Ok? ==> DistinctKeys(r.value)
    ensures args == [] ==> r == Ok([])
  {
    var config := metadataConfig.GetOr(DefaultMetadataConfig);
    var parsed := MapIndexed((_: int, pair: string) => ParsePair(pair, config), args, 0);
    if parsed.Err? {
      var i :| 0 <= i < |args| && ParsePair(args[i], config) == Err(parsed.error)
               && forall j :: 0 <= j < i ==> ParsePair(args[j], config).Ok?;
      assert FirstFailure(args, config, i);
      return Err(parsed.error);
    }
    assert parsed.value == ParsedPairs(args, config);
    PutAllDistinct([], parsed.value);
    return Ok(PutAll([], parsed.value));
  }

  /** The parsed map holds each parsed key with the value of its last pair,
      and no other key. */
  lemma ParsedMapHoldsLastValues(args: seq<string>, config: MetadataConfig, k: string)
    requires forall i :: 0 <= i < |args| ==> ParsePair(args[i], config).Ok?
    ensures var ps := ParsedPairs(args, config);
      Get(PutAll([], ps), k) == LastFor(ps, k)
    ensures var ps := ParsedPairs(args, config);
      k in Keys(PutAll([], ps)) <==> k in Keys(ps)
  {
    var ps := ParsedPairs(args, config);
    PutAllGet([], ps, k);
    LastForNone(ps, k);
  }

  /** With a one-character separator that the key does not hold, the first
      separator is the one just after the key, whatever the value holds. */
  lemma SplitAfterKey(key: string, c: char, value: string)
    requires c !in key
    ensures SplitOnce(key + [c] + value, [c]) == Some((key, value))
  {
    var pair := key + [c] + value;
    assert OccursAt(pair, [c], |key|) by {
      assert pair[|key|..|key| + 1] == [c];
    }
    var i := Find(pair, [c]).value;
    if i < |key| {
      assert pair[i..i + 1] == [c];
      assert key[i] == pair[i];
    }
    assert pair[..|key|] == key;
    assert pair[|key| + 1..] == value;
  }

  /** Writing `key<sep>value` and parsing it back gives the pair again, as
      long as the key has no separator in it; the value may hold any number
      of separators, since only the first one splits. */
  lemma FormatThenParse(key: string, value: string, config: MetadataConfig)
    requires |config.keyValueSeparator| == 1
    requires config.keyValueSeparator[0] !in key
    requires key != "" && (!config.allowEmptyValues ==> value != "")
    requires config.stripWhitespace ==> Strip(key) == key && Strip(value) == value
    ensures ParsePair(key + config.keyValueSeparator + value, config) == Ok((key, value))
  {
    var sep := config.keyValueSeparator;
    assert [sep[0]] == sep;
    SplitAfterKey(key, sep[0], value);
  }

  /** A key that is blank once trimmed is rejected, whatever the value. */
  lemma BlankKeyRejected(key: string, value: string, config: MetadataConfig)
    requires |config.keyValueSeparator| == 1
    requires config.keyValueSeparator[0] !in key
    requires config.stripWhitespace && AllSpace(key)
    ensures ParsePair(key + config.keyValueSeparator + value, config) == Err(EmptyKeyError)
  {
    var sep := config.keyValueSeparator;
    assert [sep[0]] == sep;
    SplitAfterKey(key, sep[0], value);
  }

  /** With empty values disallowed, a value that is empty (or blank, when
      trimming) is rejected with a message naming the key. */
  lemma EmptyValueRejected(key: string, value: string, config: MetadataConfig)
    requires |config.keyValueSeparator| == 1
    requires config.keyValueSeparator[0] !in key
    requires !config.allowEmptyValues && Clean(config, key) != ""
    requires Clean(config, value) == ""
    ensures ParsePair(key + config.keyValueSeparator + value, config)
      == Err(EmptyValueError(Clean(config, key)))
  {
    var sep := config.keyValueSeparator;
    assert [sep[0]] == sep;
    SplitAfterKey(key, sep[0], value);
  }

  /** Why the round trip asks for a one-character separator: a key that ends
      with the start of a longer separator can make the first occurrence
      begin inside the key. Writing key `ab` with separator `aba` gives
      `ababax`, whose first `aba` is at the very start, so the key read back
      is empty. */
  lemma OverlappingSeparatorSplitsEarly()
    ensures ParsePair("ab" + "aba" + "x", MetadataConfig("aba", false, true)) == Err(EmptyKeyError)
  {
    var pair := "ab" + "aba" + "x";
    assert OccursAt(pair, "aba", 0) by {
      assert pair[0..3] == "aba";
    }
    assert Find(pair, "aba") == Some(0);
    assert SplitOnce(pair, "aba").value.0 == "";
  }
}

=== FILE: text.dfy ===
/** The pieces of Python's `str` behaviour the modelled code relies on:
    `strip`, ASCII `lower`, `in`, `split(sep, 1)`, `split(c)`, `join`,
    `str(int)` and `int(str)`. */
module Text {
  import opened Wrappers

  /** Python's `str.isspace()` for one character. */
  predicate IsSpace(c: char) {
    || c == ' '
    || ('\t' <= c <= '\r')
    || ('\U{1c}' <= c <= '\U{1f}')
    || c == '\U{85}' || c == '\U{a0}' || c == '\U{1680}'
    || ('\U{2000}' <= c <= '\U{200a}')
    || c == '\U{2028}' || c == '\U{2029}' || c == '\U{202f}' || c == '\U{205f}' || c == '\U{3000}'
  }

  predicate AllSpace(s: string) {
    forall i :: 0 <= i < |s| ==> IsSpace(s[i])
  }

  lemma AllSpaceCons(c: char, t: string)
    ensures AllSpace([c] + t) <==> IsSpace(c) && AllSpace(t)
  {
    var s := [c] + t;
    assert s[0] == c;
    if AllSpace(s) {
      forall i | 0 <= i < |t|
        ensures IsSpace(t[i])
      {
        assert s[i + 1] == t[i];
      }
    }
    if IsSpace(c) && AllSpace(t) {
      forall i | 1 <= i < |s|
        ensures IsSpace(s[i])
      {
        assert s[i] == t[i - 1];
      }
    }
  }

  lemma AllSpaceSnoc(t: string, c: char)
    ensures AllSpace(t + [c]) <==> AllSpace(t) && IsSpace(c)
  {
    var s := t + [c];
    assert s[|t|] == c;
    if AllSpace(s) {
      forall i | 0 <= i < |t|
        ensures IsSpace(t[i])
      {
        assert s[i] == t[i];
      }
    }
    if AllSpace(t) && IsSpace(c) {
      forall i | 0 <= i < |t|
        ensures IsSpace(s[i])
      {
        assert s[i] == t[i];
      }
    }
  }

  /** `s.lstrip()`: the longest suffix of `s` that does not start with whitespace. */
  function TrimLeft(s: string): (r: string)
    ensures |r| <= |s| && r == s[|s| - |r|..]
    ensures AllSpace(s[..|s| - |r|])
    ensures r == [] || !IsSpace(r[0])
    ensures r == [] <==> AllSpace(s)
  {
    if |s| > 0 && IsSpace(s[0]) then
      var t := s[1..];
      var r := TrimLeft(t);
      assert s == [s[0]] + t;
      assert s[..|s| - |r|] == [s[0]] + t[..|t| - |r|];
      AllSpaceCons(s[0], t[..|t| - |r|]);
      AllSpaceCons(s[0], t);
      assert t[|t| - |r|..] == s[|s| - |r|..];
      r
    else s
  }

  /** `s.rstrip()`: the longest prefix of `s` that does not end with whitespace. */
  function TrimRight(s: string): (r: string)
    ensures |r| <= |s| && r == s[..|r|]
    ensures AllSpace(s[|r|..])
    ensures r == [] || !IsSpace(r[|r| - 1])
    ensures r == [] <==> AllSpace(s)
  {
    if |s| > 0 && IsSpace(s[|s| - 1]) then
      var t := s[..|s| - 1];
      var r := TrimRight(t);
      assert s == t + [s[|s| - 1]];
      assert s[|r|..] == t[|r|..] + [s[|s| - 1]];
      AllSpaceSnoc(t[|r|..], s[|s| - 1]);
      AllSpaceSnoc(t, s[|s| - 1]);
      assert t[..|r|] == s[..|r|];
      r
    else s
  }

  /** `s.strip()`. */
  function Strip(s: string): (r: string)
    ensures r == "" <==> AllSpace(s)
    ensures r != "" ==> !IsSpace(r[0]) && !IsSpace(r[|r| - 1])
    ensures |s| == 0 || (!IsSpace(s[0]) && !IsSpace(s[|s| - 1])) ==> r == s
  {
    TrimRight(TrimLeft(s))
  }

  lemma {:induction false} TrimLeftSpaces(a: string, u: string)
    requires AllSpace(a) && (u == [] || !IsSpace(u[0]))
    ensures TrimLeft(a + u) == u
    decreases |a|
  {
    if |a| == 0 {
      assert a + u == u;
    } else {
      assert (a + u)[0] == a[0];
      assert (a + u)[1..] == a[1..] + u;
      TrimLeftSpaces(a[1..], u);
    }
  }

  lemma {:induction false} TrimRightSpaces(u: string, b: string)
    requires AllSpace(b) && (u == [] || !IsSpace(u[|u| - 1]))
    ensures TrimRight(u + b) == u
    decreases |b|
  {
    if |b| == 0 {
      assert u + b == u;
    } else {
      var b' := b[..|b| - 1];
      assert (u + b)[|u + b| - 1] == b[|b| - 1];
      assert (u + b)[..|u + b| - 1] == u + b';
      TrimRightSpaces(u, b');
    }
  }

  /** Stripping removes exactly the whitespace around a text that neither
      starts nor ends with whitespace. */
  lemma StripPadded(a: string, t: string, b: string)
    requires AllSpace(a) && AllSpace(b)
    requires t != [] && !IsSpace(t[0]) && !IsSpace(t[|t| - 1])
    ensures Strip(a + t + b) == t
  {
    assert a + t + b == a + (t + b);
    TrimLeftSpaces(a, t + b);
    TrimRightSpaces(t, b);
  }

  function LowerChar(c: char): char {
    if 'A' <= c <= 'Z' then (c as int + 32) as char else c
  }

  /** `s.lower()` restricted to ASCII letters. */
  function Lower(s: string): (r: string)
    ensures |r| == |s|
    ensures forall i :: 0 <= i < |s| ==> r[i] == LowerChar(s[i])
  {
    seq(|s|, i requires 0 <= i < |s| => LowerChar(s[i]))
  }

  lemma LowerTwice(s: string)
    ensures Lower(Lower(s)) == Lower(s)
  {
  }

  lemma LowerKeepsSpace(c: char)
    ensures IsSpace(LowerChar(c)) == IsSpace(c)
  {
  }

  lemma {:induction false} TrimLeftLower(s: string)
    ensures TrimLeft(Lower(s)) == Lower(TrimLeft(s))
    decreases |s|
  {
    if |s| > 0 {
      LowerKeepsSpace(s[0]);
      assert Lower(s)[1..] == Lower(s[1..]);
      TrimLeftLower(s[1..]);
    }
  }

  lemma {:induction false} TrimRightLower(s: string)
    ensures TrimRight(Lower(s)) == Lower(TrimRight(s))
    decreases |s|
  {
    if |s| > 0 {
      LowerKeepsSpace(s[|s| - 1]);
      assert Lower(s)[..|s| - 1] == Lower(s[..|s| - 1]);
      TrimRightLower(s[..|s| - 1]);
    }
  }

  /** Lower-casing and stripping commute: case never changes whitespace. */
  lemma StripLower(s: string)
    ensures Strip(Lower(s)) == Lower(Strip(s))
  {
    TrimLeftLower(s);
    TrimRightLower(TrimLeft(s));
  }

  predicate OccursAt(s: string, sub: string, i: int) {
    0 <= i && i + |sub| <= |s| && s[i..i + |sub|] == sub
  }

  /** Python's `sub in s`. */
  predicate Contains(s: string, sub: string) {
    exists i | 0 <= i <= |s| :: OccursAt(s, sub, i)
  }

  /** `s.find(sub, from)`, as an option. */
  function FindFrom(s: string, sub: string, from: nat): (r: Option<nat>)
    requires from <= |s|
    ensures r.Some? ==> from <= r.value && OccursAt(s, sub, r.value)
    ensures r.Some? ==> forall j :: from <= j < r.value ==> !OccursAt(s, sub, j)
    ensures r.None? ==> forall j :: from <= j ==> !OccursAt(s, sub, j)
    decreases |s| - from
  {
    if OccursAt(s, sub, from) then Some(from)
    else if from == |s| then None
    else FindFrom(s, sub, from + 1)
  }

  function Find(s: string, sub: string): (r: Option<nat>)
    ensures r.Some? <==> Contains(s, sub)
    ensures r.Some? ==> OccursAt(s, sub, r.value) && forall j :: 0 <= j < r.value ==> !OccursAt(s, sub, j)
  {
    FindFrom(s, sub, 0)
  }

  /** `s.split(sep, 1)` when `sep` occurs in `s`: the text before the first
      occurrence and the text after it. */
  function SplitOnce(s: string, sep: string): (r: Option<(string, string)>)
    ensures r.Some? <==> Contains(s, sep)
    ensures r.Some? ==> r.value.0 + sep + r.value.1 == s
    ensures r.Some? && sep != "" ==> !Contains(r.value.0, sep)
  {
    match Find(s, sep)
    case None => None
    case Some(i) =>
      var key := s[..i];
      assert key + sep + s[i + |sep|..] == s by {
        assert s == s[..i] + s[i..i + |sep|] + s[i + |sep|..];
      }
      assert sep != "" ==> !Contains(key, sep) by {
        forall j | sep != "" && 0 <= j && j + |sep| <= |key|
          ensures !OccursAt(key, sep, j)
        {
          assert key[j..j + |sep|] == s[j..j + |sep|];
          assert !OccursAt(s, sep, j);
        }
      }
      Some((key, s[i + |sep|..]))
  }

  /** `sep.join(parts)`. */
  function Join(sep: string, parts: seq<string>): string
    decreases |parts|
  {
    if |parts| == 0 then ""
    else if |parts| == 1 then parts[0]
    else parts[0] + sep + Join(sep, parts[1..])
  }

  lemma {:induction false} JoinAppend(sep: string, parts: seq<string>, p: string)
    requires |parts| > 0
    ensures Join(sep, parts + [p]) == Join(sep, parts) + sep + p
    decreases |parts|
  {
    if |parts| > 1 {
      assert (parts + [p])[1..] == parts[1..] + [p];
      JoinAppend(sep, parts[1..], p);
    }
  }

  /** `"".join(parts)`. */
  function Concat(parts: seq<string>): string {
    Join("", parts)
  }

  lemma ConcatAppend(parts: seq<string>, p: string)
    ensures Concat(parts + [p]) == Concat(parts) + p
  {
    if |parts| == 0 {
      assert parts + [p] == [p];
    } else {
      JoinAppend("", parts, p);
    }
  }

  /** A string built by appending pieces to `h` starts with `h`. */
  lemma PrefixOfAppended(h: string, a: string, b: string, c: string, d: string, e: string)
    ensures h <= h + a + b + c + d + e
  {
    assert h + a + b + c + d + e == h + (a + b + c + d + e);
  }

  /** `s.split(c)` for a one-character separator: always at least one part. */
  function Split(s: string, c: char): (r: seq<string>)
    ensures |r| >= 1
  {
    if |s| == 0 then [""]
    else
      var rest := Split(s[1..], c);
      if s[0] == c then [""] + rest
      else [[s[0]] + rest[0]] + rest[1..]
  }

  /** Joining the parts of a split gives back the string. */
  lemma {:induction false} JoinSplit(s: string, c: char)
    ensures Join([c], Split(s, c)) == s
  {
    if |s| > 0 {
      var rest := Split(s[1..], c);
      JoinSplit(s[1..], c);
      if s[0] == c {
        assert Split(s, c)[1..] == rest;
      } else {
        var r := Split(s, c);
        if |rest| > 1 {
          assert r[1..] == rest[1..];
          assert Join([c], rest) == rest[0] + [c] + Join([c], rest[1..]);
        }
      }
    }
  }

  lemma {:induction false} SplitNoSeparator(a: string, c: char)
    requires c !in a
    ensures Split(a, c) == [a]
  {
    if |a| > 0 {
      SplitNoSeparator(a[1..], c);
      assert [a[0]] + a[1..] == a;
    }
  }

  lemma {:induction false} SplitAtSeparator(a: string, c: char, t: string)
    requires c !in a
    ensures Split(a + [c] + t, c) == [a] + Split(t, c)
  {
    if |a| == 0 {
      assert a + [c] + t == [c] + t;
      assert ([c] + t)[1..] == t;
    } else {
      SplitAtSeparator(a[1..], c, t);
      assert (a + [c] + t)[1..] == a[1..] + [c] + t;
      assert [a[0]] + a[1..] == a;
    }
  }

  /** Splitting a join gives back the parts, provided no part holds the
      separator (the other half of the round trip). */
  lemma {:induction false} SplitJoin(parts: seq<string>, c: char)
    requires |parts| >= 1
    requires forall i :: 0 <= i < |parts| ==> c !in parts[i]
    ensures Split(Join([c], parts), c) == parts
    decreases |parts|
  {
    if |parts| == 1 {
      SplitNoSeparator(parts[0], c);
    } else {
      SplitJoin(parts[1..], c);
      SplitAtSeparator(parts[0], c, Join([c], parts[1..]));
      assert [parts[0]] + parts[1..] == parts;
    }
  }

  predicate IsDigit(c: char) {
    '0' <= c <= '9'
  }

  function DigitChar(d: int): char
    requires 0 <= d <= 9
  {
    ('0' as int + d) as char
  }

  /** `str(n)` for a natural number. */
  function NatToString(n: nat): (r: string)
    ensures |r| > 0 && forall i :: 0 <= i < |r| ==> IsDigit(r[i])
  {
    if n < 10 then [DigitChar(n)] else NatToString(n / 10) + [DigitChar(n % 10)]
  }

  /** `str(n)` for an integer. */
  function IntToString(n: int): string {
    if n < 0 then "-" + NatToString(-n) else NatToString(n)
  }

  /** The digit body `int()` accepts: digits, with single underscores
      allowed between two digits. */
  predicate DigitGroups(s: string) {
    && |s| > 0
    && IsDigit(s[0])
    && forall i :: 0 <= i < |s| ==> IsDigit(s[i]) || (s[i] == '_' && i + 1 < |s| && IsDigit(s[i + 1]))
  }

  /** The number a digit body denotes; underscores carry no value. */
  function DigitsValue(s: string): nat {
    if |s| == 0 then 0
    else
      var p := DigitsValue(s[..|s| - 1]);
      var c := s[|s| - 1];
      if IsDigit(c) then 10 * p + (c as int - '0' as int) else p
  }

  function IntError(s: string): Error {
    ValueError("invalid literal for int() with base 10: '" + s + "'")
  }

  /** `int(s)`: surrounding whitespace, an optional sign, then a digit body. */
  function ParseInt(s: string): (r: Result<int>)
    ensures AllSpace(s) ==> r == Err(IntError(s))
    ensures r.Err? ==> r == Err(IntError(s))
  {
    var t := Strip(s);
    var neg := |t| > 0 && t[0] == '-';
    var body := if |t| > 0 && (t[0] == '-' || t[0] == '+') then t[1..] else t;
    var n: int := DigitsValue(body);
    if DigitGroups(body) then Ok(if neg then -n else n)
    else Err(IntError(s))
  }

  lemma {:induction false} NatToStringParses(n: nat)
    ensures DigitGroups(NatToString(n))
    ensures DigitsValue(NatToString(n)) == n
  {
    if n >= 10 {
      NatToStringParses(n / 10);
      var p := NatToString(n / 10);
      assert (p + [DigitChar(n % 10)])[..|p|] == p;
    }
  }

  /** `int(str(n)) == n`. */
  lemma IntToStringParses(n: int)
    ensures ParseInt(IntToString(n)) == Ok(n)
  {
    var s := IntToString(n);
    var m := if n < 0 then -n else n;
    var d := NatToString(m);
    NatToStringParses(m);
    assert !IsSpace(s[0]) && !IsSpace(s[|s| - 1]);
    assert Strip(s) == s;
    if n < 0 {
      assert s[1..] == d;
    }
  }
}

=== FILE: tools_config.dfy ===
/** The request fragments the command-line tools send to the knowledge-base
    runtime: a retrieval configuration, a retrieve-and-generate
    configuration, and the rephrasing model's inference settings. */
module ToolsConfig {
  import opened Wrappers
  import opened Text
  import opened Dicts
  import opened Values

  const DefaultRegion := "us-east-1"

  const RephraseModelId := "amazon.nova-pro-v1:0"
  const RephraseMaxTokens := 500
  const RephraseTemperature := 0            // an `int` in the source, not a float
  const RephraseTopP := Float("0.1")
  const RephraseTopK := 50

  const RetrieveNumberOfResults := 3
  const OverrideSearchType := "SEMANTIC"

  const RetrieveGenerateNumberOfResults := 3
  const RetrieveGenerateMaxTokens := 1500
  const RetrieveGenerateTemperature := Float("0.2")
  const RetrieveGenerateTopP := Float("0.9")

  /** The placeholder the knowledge-base runtime fills with the retrieved passages. */
  const SearchResultsPlaceholder := "$search_results$"

  const PromptBeforeResults :=
    "你是保險公司內部的文件助手，負責將使用者所輸入的需求，撰寫成一份內部簽呈草稿。"
    + "請以正式公文語氣、繁體中文完成，並覆蓋以下四大項目："
    + "一、【主旨】" + "二、【內文】" + "三、【建議附件】" + "四、【審核流程】"
    + "\n\n" + "以下為來自知識庫的檢索結果：\n"

  const PromptAfterResults :=
    "\n" + "\n" + "請根據上述檢索結果撰寫草稿，並且保留使用者輸入的關鍵資訊，不新增使用者未提及的內容。\n"
    + "草稿開始："

  const PromptTemplate := PromptBeforeResults + SearchResultsPlaceholder + PromptAfterResults

  lemma PromptTemplateHasPlaceholder()
    ensures Contains(PromptTemplate, SearchResultsPlaceholder)
  {
    var i := |PromptBeforeResults|;
    assert PromptTemplate[i..i + |SearchResultsPlaceholder|] == SearchResultsPlaceholder;
    assert OccursAt(PromptTemplate, SearchResultsPlaceholder, i);
  }

  /** `RephraseConfig.inference_config()`: exactly the four class constants. */
  function InferenceConfig(): (r: Dict<Value>)
    ensures Keys(r) == ["max_new_tokens", "temperature", "top_p", "top_k"]
    ensures Get(r, "max_new_tokens") == Some(Int(RephraseMaxTokens))
    ensures Get(r, "temperature") == Some(Int(RephraseTemperature))
    ensures Get(r, "top_p") == Some(Num(RephraseTopP))
    ensures Get(r, "top_k") == Some(Int(RephraseTopK))
  {
    var r := [("max_new_tokens", Int(RephraseMaxTokens)),
              ("temperature", Int(RephraseTemperature)),
              ("top_p", Num(RephraseTopP)),
              ("top_k", Int(RephraseTopK))];
    Display4("max_new_tokens", Int(RephraseMaxTokens), "temperature", Int(RephraseTemperature),
             "top_p", Num(RephraseTopP), "top_k", Int(RephraseTopK));
    r
  }

  /** The `vectorSearchConfiguration` block: the count, the fixed search
      type, and the filter only when it is truthy. The block is fresh, so
      assigning its `filter` key appends a third entry. */
  function VectorSearchConfiguration(results: int, metadataFilter: Option<Value>): (r: Dict<Value>)
    ensures metadataFilter.Some? && Truthy(metadataFilter.value) ==>
      Keys(r) == ["numberOfResults", "overrideSearchType", "filter"]
      && Get(r, "filter") == Some(metadataFilter.value)
    ensures metadataFilter.None? || !Truthy(metadataFilter.value) ==>
      Keys(r) == ["numberOfResults", "overrideSearchType"]
    ensures Get(r, "numberOfResults") == Some(Int(results))
    ensures Get(r, "overrideSearchType") == Some(Str(OverrideSearchType))
  {
    var search := [("numberOfResults", Int(results)), ("overrideSearchType", Str(OverrideSearchType))];
    if metadataFilter.Some? && Truthy(metadataFilter.value) then
      Display3("numberOfResults", Int(results), "overrideSearchType", Str(OverrideSearchType),
               "filter", metadataFilter.value);
      search + [("filter", metadataFilter.value)]
    else
      Display2("numberOfResults", Int(results), "overrideSearchType", Str(OverrideSearchType));
      search
  }

  /** `RetrieveConfig.retrieval_configuration`. The result count defaults
      only when it is absent, so an explicit 0 is kept. */
  function RetrievalConfiguration(numberOfResults: Option<int>, metadataFilter: Option<Value>): (r: Dict<Value>)
    ensures Keys(r) == ["vectorSearchConfiguration"]
    ensures numberOfResults.Some? ==>
      Get(r, "vectorSearchConfiguration") == Some(Object(VectorSearchConfiguration(numberOfResults.value, metadataFilter)))
    ensures numberOfResults.None? ==>
      Get(r, "vectorSearchConfiguration") == Some(Object(VectorSearchConfiguration(RetrieveNumberOfResults, metadataFilter)))
  {
    var results := numberOfResults.GetOr(RetrieveNumberOfResults);
    var r := [("vectorSearchConfiguration", Object(VectorSearchConfiguration(results, metadataFilter)))];
    KeysOfPairs(r, ["vectorSearchConfiguration"]);
    GetAt(r, 0);
    r
  }

  /** The fixed `generationConfiguration` block: the prompt template and
      the three inference constants. */
  function GenerationConfiguration(): (r: Dict<Value>)
    ensures Keys(r) == ["promptTemplate", "inferenceConfig"]
    ensures Get(r, "promptTemplate") == Some(Object([("textPromptTemplate", Str(PromptTemplate))]))
    ensures Get(r, "inferenceConfig") == Some(Object([("textInferenceConfig", Object([
      ("maxTokens", Int(RetrieveGenerateMaxTokens)),
      ("temperature", Num(RetrieveGenerateTemperature)),
      ("topP", Num(RetrieveGenerateTopP))]))]))
  {
    var r := [("promptTemplate", Object([("textPromptTemplate", Str(PromptTemplate))])),
              ("inferenceConfig", Object([
                ("textInferenceConfig", Object([
                  ("maxTokens", Int(RetrieveGenerateMaxTokens)),
                  ("temperature", Num(RetrieveGenerateTemperature)),
                  ("topP", Num(RetrieveGenerateTopP))]))]))];
    Display2("promptTemplate", r[0].1, "inferenceConfig", r[1].1);
    r
  }

  /** The `knowledgeBaseConfiguration` block: the identifiers unchanged, the
      same vector search block `retrieval_configuration` builds without a
      filter, and the generation block. */
  function KnowledgeBaseConfiguration(knowledgeBaseId: string, modelArn: string, results: int): (r: Dict<Value>)
    ensures Keys(r) == ["knowledgeBaseId", "modelArn", "retrievalConfiguration", "generationConfiguration"]
    ensures Get(r, "knowledgeBaseId") == Some(Str(knowledgeBaseId))
    ensures Get(r, "modelArn") == Some(Str(modelArn))
    ensures Get(r, "retrievalConfiguration") == Some(Object(RetrievalConfiguration(Some(results), None)))
    ensures Get(r, "generationConfiguration") == Some(Object(GenerationConfiguration()))
  {
    var search := [("numberOfResults", Int(results)), ("overrideSearchType", Str(OverrideSearchType))];
    var retrieval := [("vectorSearchConfiguration", Object(search))];
    var r := [
      ("knowledgeBaseId", Str(knowledgeBaseId)),
      ("modelArn", Str(modelArn)),
      ("retrievalConfiguration", Object(retrieval)),
      ("generationConfiguration", Object(GenerationConfiguration()))];
    assert VectorSearchConfiguration(results, None) == search;
    assert RetrievalConfiguration(Some(results), None) == retrieval;
    Display4("knowledgeBaseId", Str(knowledgeBaseId), "modelArn", Str(modelArn),
             "retrievalConfiguration", Object(retrieval), "generationConfiguration", Object(GenerationConfiguration()));
    r
  }

  /** `RetrieveGenerateConfig.retrieve_and_gen_config`: the result count
      defaults only when absent. */
  function RetrieveAndGenConfig(knowledgeBaseId: string, modelArn: string, numberOfResults: Option<int>): (r: Dict<Value>)
    ensures Keys(r) == ["type", "knowledgeBaseConfiguration"]
    ensures Get(r, "type") == Some(Str("KNOWLEDGE_BASE"))
    ensures Get(r, "knowledgeBaseConfiguration")
      == Some(Object(KnowledgeBaseConfiguration(knowledgeBaseId, modelArn, numberOfResults.GetOr(RetrieveGenerateNumberOfResults))))
  {
    var results := numberOfResults.GetOr(RetrieveGenerateNumberOfResults);
    var r := [
      ("type", Str("KNOWLEDGE_BASE")),
      ("knowledgeBaseConfiguration", Object(KnowledgeBaseConfiguration(knowledgeBaseId, modelArn, results)))];
    Display2("type", Str("KNOWLEDGE_BASE"), "knowledgeBaseConfiguration",
             Object(KnowledgeBaseConfiguration(knowledgeBaseId, modelArn, results)));
    r
  }
}

=== FILE: values.dfy ===
/** Python objects as they flow through the modelled code: JSON-like values,
    plus `bytes` for the agent's event stream. */
module Values {
  import opened Wrappers
  import opened Text
  import opened Dicts

  /** A Python `float`, kept opaque: only its `repr` text is carried, since no
      modelled operation does arithmetic on one. */
  datatype Float = Float(repr: string)

  datatype Value =
    | Null
    | Bool(b: bool)
    | Int(i: int)
    | Num(f: Float)
    | Str(s: string)
    | Bytes(data: seq<bv8>)
    | List(items: seq<Value>)
    | Object(fields: seq<(string, Value)>)

  /** Python truthiness (`bool(v)`). */
  predicate Truthy(v: Value) {
    match v
    case Null => false
    case Bool(b) => b
    case Int(i) => i != 0
    case Num(f) => f.repr != "0.0" && f.repr != "-0.0"
    case Str(s) => s != ""
    case Bytes(d) => |d| > 0
    case List(items) => |items| > 0
    case Object(fields) => |fields| > 0
  }

  /** `type(v).__name__`. */
  function TypeName(v: Value): string {
    match v
    case Null => "NoneType"
    case Bool(_) => "bool"
    case Int(_) => "int"
    case Num(_) => "float"
    case Str(_) => "str"
    case Bytes(_) => "bytes"
    case List(_) => "list"
    case Object(_) => "dict"
  }

  function HexDigit(d: int): char
    requires 0 <= d < 16
  {
    if d < 10 then DigitChar(d) else ('a' as int + d - 10) as char
  }

  /** One byte inside `b'...'`: printable ASCII other than the quote and the
      backslash as itself, every other byte as `\xhh`. Python's `repr`
      differs for tab, newline, carriage return, the backslash and the quote,
      which it writes as `\t`, `\n`, `\r`, `\\` and `\'` (or by switching to
      double quotes). */
  function ByteRepr(b: bv8): string {
    var n := b as int;
    if 32 <= n < 127 && n != 39 && n != 92 then [n as char]
    else ['\\', 'x', HexDigit(n / 16), HexDigit(n % 16)]
  }

  /** `repr(v)`. */
  function Repr(v: Value): string
    decreases v
  {
    match v
    case Null => "None"
    case Bool(b) => if b then "True" else "False"
    case Int(i) => IntToString(i)
    case Num(f) => f.repr
    case Str(s) => "'" + s + "'"
    case Bytes(d) => "b'" + Concat(seq(|d|, k requires 0 <= k < |d| => ByteRepr(d[k]))) + "'"
    case List(items) =>
      "[" + Join(", ", seq(|items|, k requires 0 <= k < |items| => Repr(items[k]))) + "]"
    case Object(fields) =>
      "{" + Join(", ", seq(|fields|, k requires 0 <= k < |fields| =>
        "'" + fields[k].0 + "': " + Repr(fields[k].1))) + "}"
  }

  /** `str(v)`: a string is itself, everything else its `repr`. */
  function PyStr(v: Value): (r: string)
    ensures v.Str? ==> r == v.s
  {
    if v.Str? then v.s else Repr(v)
  }

  /** `v.get(key, default)`; anything but a dict has no `get`. */
  function DictGet(v: Value, key: string, default: Value): (r: Result<Value>)
    ensures r.Ok? <==> v.Object?
    ensures v.Object? && key !in Keys(v.fields) ==> r == Ok(default)
    ensures v.Object? && key in Keys(v.fields) ==> r.Ok? && (key, r.value) in v.fields
  {
    match v
    case Object(fields) => Ok(Get(fields, key).GetOr(default))
    case _ => Err(AttributeError("'" + TypeName(v) + "' object has no attribute 'get'"))
  }

  /** The items `for x in v` visits: list elements, dict keys, the characters
      of a string, the integers of a bytes object. */
  function Iterate(v: Value): (r: Result<seq<Value>>)
    ensures v.List? ==> r == Ok(v.items)
    ensures r.Ok? <==> v.List? || v.Object? || v.Str? || v.Bytes?
  {
    match v
    case List(items) => Ok(items)
    case Object(fields) => Ok(seq(|fields|, k requires 0 <= k < |fields| => Str(fields[k].0)))
    case Str(s) => Ok(seq(|s|, k requires 0 <= k < |s| => Str([s[k]])))
    case Bytes(d) => Ok(seq(|d|, k requires 0 <= k < |d| => Int(d[k] as int)))
    case _ => Err(TypeError("'" + TypeName(v) + "' object is not iterable"))
  }

  /** `v[key]` with a string key. */
  function Subscript(v: Value, key: string): (r: Result<Value>)
    ensures v.Object? && key in Keys(v.fields) ==> r.Ok? && (key, r.value) in v.fields
    ensures v.Object? && key in Keys(v.fields) ==> Get(v.fields, key) == Some(r.value)
    ensures v.Object? && key !in Keys(v.fields) ==> r == Err(KeyError(key))
    ensures !v.Object? ==> r.Err? && r.error.TypeError?
  {
    match v
    case Object(fields) =>
      (match Get(fields, key)
       case Some(x) => Ok(x)
       case None => Err(KeyError(key)))
    case List(_) => Err(TypeError("list indices must be integers or slices, not str"))
    case Str(_) => Err(TypeError("string indices must be integers, not 'str'"))
    case Bytes(_) => Err(TypeError("byte indices must be integers or slices, not str"))
    case _ => Err(TypeError("'" + TypeName(v) + "' object is not subscriptable"))
  }

  /** `key in v` for a string `key`: a key of a dict, an item of a list, a
      substring of a string. Bytes refuse a `str` operand, and every other
      value is not iterable. */
  function Membership(v: Value, key: string): (r: Result<bool>)
    ensures v.Object? ==> r == Ok(key in Keys(v.fields))
    ensures v.List? ==> r == Ok(Str(key) in v.items)
    ensures v.Str? ==> r == Ok(Contains(v.s, key))
    ensures r.Ok? <==> v.Object? || v.List? || v.Str?
    ensures r.Err? ==> r.error.TypeError?
  {
    match v
    case Object(fields) => Ok(key in Keys(fields))
    case List(items) => Ok(Str(key) in items)
    case Str(s) => Ok(Contains(s, key))
    case Bytes(_) => Err(TypeError("a bytes-like object is required, not 'str'"))
    case _ => Err(TypeError("argument of type '" + TypeName(v) + "' is not iterable"))
  }

  /** The strings of a sequence of `str` values. */
  function Strs(parts: seq<Value>): (r: seq<string>)
    requires forall i :: 0 <= i < |parts| ==> parts[i].Str?
    ensures |r| == |parts| && forall i :: 0 <= i < |parts| ==> parts[i] == Str(r[i])
  {
    seq(|parts|, i requires 0 <= i < |parts| => parts[i].s)
  }

  /** The position of the first item that is not a `str`, if any. */
  function FirstNonStr(parts: seq<Value>): (r: Option<nat>)
    ensures r.None? <==> forall i :: 0 <= i < |parts| ==> parts[i].Str?
    ensures r.Some? ==>
      && r.value < |parts| && !parts[r.value].Str?
      && forall i :: 0 <= i < r.value ==> parts[i].Str?
  {
    if |parts| == 0 then None
    else if !parts[0].Str? then Some(0)
    else match FirstNonStr(parts[1..])
      case None => None
      case Some(i) => Some(i + 1)
  }

  /** `sep.join(parts)`: every item must be a `str`, and the first that is
      not is named in the `TypeError`. */
  function JoinStrs(sep: string, parts: seq<Value>): (r: Result<string>)
    ensures r.Ok? <==> forall i :: 0 <= i < |parts| ==> parts[i].Str?
    ensures r.Ok? ==> r.value == Join(sep, Strs(parts))
    ensures r.Err? ==> r.error.TypeError?
  {
    match FirstNonStr(parts)
    case None => Ok(Join(sep, Strs(parts)))
    case Some(i) =>
      Err(TypeError("sequence item " + IntToString(i) + ": expected str instance, "
                    + TypeName(parts[i]) + " found"))
  }

  /** Python's `a or b` on an optional string: the default replaces both an
      absent and an empty value. */
  function OrString(o: Option<string>, default: string): (r: string)
    ensures o.Some? && o.value != "" ==> r == o.value
    ensures o.None? || o.value == "" ==> r == default
  {
    if o.Some? && o.value != "" then o.value else default
  }

  /** Python's `a or b` on an optional integer: the default replaces both an
      absent value and zero. */
  function OrInt(o: Option<int>, default: int): (r: int)
    ensures o.Some? && o.value != 0 ==> r == o.value
    ensures o.None? || o.value == 0 ==> r == default
  {
    if o.Some? && o.value != 0 then o.value else default
  }

  /** `a or b` and `a if a is not None else b` disagree exactly when `a` is
      an explicit zero and the default is not. */
  lemma OrIntVersusIfNone(o: Option<int>, default: int)
    ensures OrInt(o, default) != o.GetOr(default) <==> o == Some(0) && default != 0
  {
  }

  /** The library calls the modelled code makes on data: `json.loads` and
      `bytes.decode("utf-8")`. Both may fail; their internals are not modelled. */
  datatype Codec = Codec(parseJson: string -> Result<Value>, decodeUtf8: seq<bv8> -> Result<string>)
}

=== FILE: wrappers.dfy ===
/** Option and Result types used in place of Python's `None` and exceptions.
    `Error` names the exception class the Python code would raise, so that
    `str(e)` (used by the serverless handler) can be modelled exactly. */
module Wrappers {

  datatype Option<+T> = None | Some(value: T) {

    /** Python's `x if x is not None else default`. */
    function GetOr(default: T): T {
      match this
      case Some(v) => v
      case None => default
    }
  }

  /** The exception classes raised by the modelled code. */
  datatype Error =
    | ValueError(msg: string)
    | RuntimeError(msg: string)
    | KeyError(key: string)
    | TypeError(msg: string)
    | AttributeError(msg: string)
    | ServiceError(msg: string)   // raised by an external service or library call
  {
    /** `str(e)`: a `KeyError` shows the quoted key, every other class its message. */
    function Message(): (s: string)
      ensures KeyError? ==> s == "'" + key + "'"
      ensures !KeyError? ==> s == msg
    {
      match this
      case KeyError(k) => "'" + k + "'"
      case ValueError(m) => m
      case RuntimeError(m) => m
      case TypeError(m) => m
      case AttributeError(m) => m
      case ServiceError(m) => m
    }
  }

  datatype Result<+T> = Ok(value: T) | Err(error: Error) {

    predicate IsFailure() {
      Err?
    }

    function PropagateFailure<U>(): Result<U>
      requires Err?
    {
      Err(error)
    }

    function Extract(): T
      requires Ok?
    {
      value
    }
  }

  /** A `for` loop over `enumerate(xs, start)` that collects `f`'s result for
      each element in order, stopping at the first exception. */
  method MapIndexed<T, U>(f: (int, T) -> Result<U>, xs: seq<T>, start: int) returns (r: Result<seq<U>>)
    ensures r.Ok? <==> forall i :: 0 <= i < |xs| ==> f(i + start, xs[i]).Ok?
    ensures r.Ok? ==> |r.value| == |xs| && forall i :: 0 <= i < |xs| ==> f(i + start, xs[i]) == Ok(r.value[i])
    ensures r.Err? ==> exists i :: 0 <= i < |xs| && f(i + start, xs[i]) == Err(r.error)
                                   && forall j :: 0 <= j < i ==> f(j + start, xs[j]).Ok?
  {
    var ys: seq<U> := [];
    var i := 0;
    while i < |xs|
      invariant 0 <= i <= |xs|
      invariant |ys| == i
      invariant forall j :: 0 <= j < i ==> f(j + start, xs[j]) == Ok(ys[j])
    {
      var y := f(i + start, xs[i]);
      if y.Err? {
        return Err(y.error);
      }
      ys := ys + [y.value];
      i := i + 1;
    }
    return Ok(ys);
  }
}
